=== FILE: README.md ===
# remesher-daemon in Dafny

remesher-daemon watches an input directory for `.zip` archives of OBJ meshes.
It queues each archive as a task in a SQLite table. A single worker then takes
the oldest pending task and converts every mesh to FBX with Blender. It
retopologises the mesh with xremesh, whose quad budget comes from Blender's
triangle count, and converts the result back to OBJ. The OBJ files are packed
into `<task id>_out.zip` in the output directory. Mesh names holding Chinese
characters get ASCII codes for the FBX files Blender writes for xremesh and
for xremesh's output. The OBJ files Blender writes back already carry the
original names. Every task ends DONE or FAILED with the failure's message. Tasks left
PROCESSING by an interrupted run are failed when the daemon starts again.

This project models that logic as pure functions over immutable values:

- `Common` (common.dfy): `Option`, `Result`, bytes, and the string and path
  helpers the Python code takes from `str` and `os.path`.
- `Hex` (hex.dfy) and `Utf8` (utf8.dfy): `bytes.hex`/`bytes.fromhex`, and strict
  UTF-8 encoding and decoding. They are proved inverse in both directions.
- `NameCodec` (name_codec.dfy): utils/chinese_ascii.py.
  - The forward and reverse maps are one `NameMap` value, which stands for the
    JSON file. The file mirrors memory after every call, so loading and saving
    are the identity.
- `TaskStore` (task_store.dfy): db/database.py.
  - The table is a map from task id to record. `DB_PATH` becomes an
    `initialized` flag.
  - Ids and timestamps are parameters, standing for `uuid4()` and the clock.
- `Remesher` (remesher.dfy): remesher.py. Blender's standard output, xremesh's
  exit code and its stderr are inputs.
- `Pipeline` (pipeline.dfy): `process_task` of pipeline.py.
  - Each external effect is a field of a `World` value, fixed for one call:
    unpacking, the `.obj` glob, both Blender conversions, xremesh, the final
    directory listing, packing and the move.
  - The work directories, delivered archives and name map form a `Disk` value.
- `Worker` (worker.dfy): main.py.
  - Startup recovery.
  - The watcher's filter.
  - One pass of the worker loop as a method over the table and the `Disk`.

## Model

| member | source | states |
|---|---|---|
| Hex.Encode | utils/chinese_ascii.py:42 | `bytes.hex()` gives two lower-case hex digits per byte |
| Hex.Decode | utils/chinese_ascii.py:62 | text that `bytes.fromhex` accepts has exactly two hex digits for every byte it yields |
| Hex.DecodeEncode | utils/chinese_ascii.py:62 | `bytes.fromhex` recovers every byte string from its `hex()` text |
| Hex.EncodeDecode | utils/chinese_ascii.py:62 | whatever `fromhex` accepts is the lower-cased text of `hex()` of its result, so odd lengths and non-digits are rejected |
| Hex.DecodeIgnoresCase | utils/chinese_ascii.py:62 | `fromhex` accepts upper-case digits as well |
| Utf8.Encode | utils/chinese_ascii.py:42 | `encode("utf-8")` spends between one and four bytes on each character |
| Utf8.Decode | utils/chinese_ascii.py:62 | strict decoding yields no more characters than bytes, and the empty string exactly from empty input |
| Utf8.DecodeEncode | utils/chinese_ascii.py:42 | strict UTF-8 decoding recovers every string from its encoding |
| Utf8.EncodeDecode | utils/chinese_ascii.py:62 | a byte string the strict decoder accepts is exactly the encoding of what it decodes to, so overlong or otherwise invalid sequences are rejected |
| NameCodec.HasCjk | utils/chinese_ascii.py:41 | a name with a U+4E00-U+9FFF character is non-empty and not pure ASCII, so it can never be its own code |
| NameCodec.Payload | utils/chinese_ascii.py:58-61 | a capture exists exactly for codes starting with "ch_". It is everything after "ch_", less one trailing newline that Python's `$` lets stand outside the match. The `\w` test is left to the hex decoding that follows |
| NameCodec.DecodeCode | utils/chinese_ascii.py:58-70 | a code that parses yields a non-empty name shorter than the code |
| NameCodec.ToAscii | utils/chinese_ascii.py:32-49 | a cached name returns its recorded code and changes nothing. A new name with a U+4E00-U+9FFF character becomes "ch_" + lower-case UTF-8 hex. That code is pure ASCII and parses back to the name, and both maps gain the entry. Any other name is returned unchanged with the maps untouched |
| NameCodec.FromAscii | utils/chinese_ascii.py:51-70 | a recorded code returns its name. A code that parses as `ch_` + hex of valid UTF-8 returns the decoded name and registers both directions. Anything else is returned unchanged, with nothing recorded |
| NameCodec.ClearMap | utils/chinese_ascii.py:72-78 | both maps are empty afterwards, which satisfies the coherence invariant |
| NameCodec.EncodeNameIsAscii | utils/chinese_ascii.py:41-43 | the code of a name is pure ASCII and starts with "ch_" |
| NameCodec.DecodeEncodeName | utils/chinese_ascii.py:58-67 | parsing the code of a non-empty name gives the name back |
| NameCodec.DecodeCodeExactly | utils/chinese_ascii.py:58-70 | parsing succeeds with a name exactly when the code is "ch_" + the hex of that non-empty name's UTF-8 (either case, one trailing newline allowed) |
| NameCodec.ToAsciiKeepsCoherent | utils/chinese_ascii.py:44-46 | `to_ascii` keeps the maps coherent: every code parses to its recorded name, and every forward entry has its reverse entry |
| NameCodec.FromAsciiKeepsCoherent | utils/chinese_ascii.py:63-66 | `from_ascii` keeps the maps coherent |
| NameCodec.RoundTrip | utils/chinese_ascii.py:38-67 | from coherent maps, `from_ascii(to_ascii(name)) == name` for every name with a CJK character or already recorded |
| NameCodec.RoundTripFromEmpty | utils/chinese_ascii.py:41-67 | after `clear_map`, the round trip of a CJK name returns the name and leaves the maps as `to_ascii` left them |
| NameCodec.ToAsciiIdempotent | utils/chinese_ascii.py:38-39 | a second `to_ascii` of the same name returns the same code and changes nothing |
| NameCodec.AsciiNameDoesNotRoundTrip | utils/chinese_ascii.py:48-67 | "ch_41" passes through `to_ascii` unchanged, yet `from_ascii` turns it into "A" |
| NameCodec.PassThroughRoundTrip | utils/chinese_ascii.py:38-70 | from coherent maps, a name without a CJK character that is not recorded survives `from_ascii(to_ascii(name))` exactly when it does not parse as a code |
| NameCodec.FromAsciiThenToAscii | utils/chinese_ascii.py:38-66 | once `from_ascii` has parsed a code, `to_ascii` of the name returns that same code, even if it used upper-case hex |
| TaskStore.InitDb | db/database.py:11-27 | the store is initialised, and existing rows survive (`CREATE TABLE IF NOT EXISTS`) |
| TaskStore.AddTask | db/database.py:29-42 | raises before initialisation and on a repeated id. Otherwise it adds exactly one PENDING record with the path, the time and no message, returns its id, and leaves every other record unchanged |
| TaskStore.GetNextTask | db/database.py:44-62 | raises before initialisation. Returns None exactly when no record is PENDING, otherwise a PENDING record with the least creation time. Reads only |
| TaskStore.UpdateStatus | db/database.py:64-80 | raises before initialisation. Sets the named record's status, and its message only when one is given. Other records, and the store for an unknown id, stay unchanged |
| TaskStore.UpdateStatusIdempotent | db/database.py:69-78 | repeating an update changes nothing |
| TaskStore.MarkProcessingAsFailed | db/database.py:82-96 | raises before initialisation. Every PROCESSING record becomes FAILED with "Reset by daemon startup", all others stay. The count is the number of records that were PROCESSING |
| TaskStore.MarkTwiceChangesNothing | db/database.py:90-93 | a second sweep right after the first returns 0 and changes nothing |
| Remesher.TrimStartRemovesSpace | remesher.py:53-55 | stripping the front removes only whitespace and keeps the rest as a suffix |
| Remesher.TrimEndRemovesSpace | remesher.py:53-55 | stripping the end removes only whitespace and keeps the rest as a prefix |
| Remesher.StripRemovesOnlySpace | remesher.py:53-55 | `strip()` returns a slice of its input with only whitespace cut on either side, and neither end of the result is whitespace |
| Remesher.SplitLines | remesher.py:53 | `splitlines()` gives lines with no line break in them, and no lines exactly for the empty text |
| Remesher.SplitLinesSingle | remesher.py:53 | text with no line boundary is one line |
| Remesher.SplitLinesCons | remesher.py:53 | text up to the first one-character boundary is the first line, and the rest splits on |
| Remesher.SplitLinesCrLf | remesher.py:53 | "\r\n" is a single boundary: the text before it is the first line, and the rest splits on without an empty line between |
| Remesher.LastCount | remesher.py:54-56 | scanning backwards gives the value of the last line that is all digits once stripped, and None exactly when no line is |
| Remesher.TriangleCount | remesher.py:52-58 | the value of the last all-digit line of stripped, split stdout, or 5000 when there is none |
| Remesher.NatToStringRoundTrip | remesher.py:86 | the decimal text written for the budget reads back as the budget |
| Remesher.TargetQuadCount | remesher.py:67-73 | the budget is at least 1, and never exceeds a positive count. It is the count truncated to 1/20 above 100000, to 1/10 above 20000, and to 1/4 otherwise |
| Remesher.SettingsText | remesher.py:81-92 | the settings file starts with "HostApp=Daemon" on a line of its own and ends with a newline |
| Remesher.SettingsFileLayout | remesher.py:81-92 | the settings file splits into exactly the 11 lines written, in order: it starts with HostApp=Daemon, and its fifth line carries the budget in decimal |
| Remesher.RunXremesh | remesher.py:62-105 | raises "xremesh failed: " + stderr exactly when the exit code is non-zero, and removes the temporary directory either way. The budget written is the tiered count of Blender's parsed output, which is at least 1 |
| Pipeline.OriginalBaseInLastComponent | pipeline.py:56 | the original base is no longer than the path and holds no "/" |
| Pipeline.OriginalBaseOfObj | pipeline.py:56 | for a file the `*.obj` glob finds, the original base is the file name without ".obj" |
| Pipeline.Put | pipeline.py:58 | a dict assignment never reorders keys and only ever writes the new pair |
| Pipeline.PutIsAssignment | pipeline.py:58 | `ascii2orig[k] = v` maps k to v. A new key is appended, an existing one keeps its place, and no other entry changes |
| Pipeline.StageError | pipeline.py:63-73 | a file raises in the try block exactly when one of the three external stages fails. The daemon's chosen names play no part |
| Pipeline.StepSplits | pipeline.py:55-73 | one iteration appends the output path to `processed` when all three stages succeed, and the file to `failed` otherwise |
| Pipeline.PartitionSizes | pipeline.py:55-73 | every file is either processed or failed, the two counts add up to the number of files, and none is processed exactly when all fail |
| Pipeline.RunFilesSplits | pipeline.py:55-73 | the loop appends, in glob order, the output path of each file whose three stages succeed to `processed` and every other file to `failed` |
| Pipeline.ToAsciiStable | pipeline.py:57 | encoding one name does not change the code `to_ascii` gives any other name |
| Pipeline.RunFilesTable | pipeline.py:55-58 | after the loop the name map is coherent, `ascii2orig` has unique keys with each entry mapping `to_ascii(original)` to original, and every file's ASCII base is a key |
| Pipeline.LoopAccounts | pipeline.py:41-73 | the loop's bookkeeping for a whole task: partition, order and the `ascii2orig` table |
| Pipeline.RenameOne | pipeline.py:85-91 | the first entry whose `ascii_base + "_remeshed"` starts the name replaces that prefix with `original_base + "_remeshed"`. A name no entry matches is kept |
| Pipeline.RenameAll | pipeline.py:79-91 | each listed file name is renamed independently and the listing keeps its length |
| Pipeline.RenameKeepsPlainNames | pipeline.py:79-91 | with an identity `ascii2orig`, renaming changes no name |
| Pipeline.NoCjkNoRename | pipeline.py:55-91 | a task whose file names hold no CJK character is packed under the names in the listing, for any persisted name map that records only CJK names |
| Pipeline.LoopEmptyIffAllFail | pipeline.py:75-76 | `processed` is empty exactly when every file failed a stage |
| Pipeline.Body | pipeline.py:32-100 | the `try` block: the unpacking error, "No .obj files found in zip." and "All .obj files failed to process." in that order. After them, the packing error, then the move error, is the result. It succeeds exactly when a file survives and the pack and move succeed, with `<id>_out.zip` and the renamed listing |
| Pipeline.ProcessTask | pipeline.py:20-104 | The unpacking error, "No .obj files found in zip." and "All .obj files failed to process." fail the task in that order, followed by the packing error and then the move error, each as the task's message. Success needs a surviving file and a successful pack and move, and delivers `<id>_out.zip` with the renamed listing. Every path removes the work directory and clears the name map |
| Worker.Startup | main.py:35-38 | before any dequeue, the store is initialised and no record is PROCESSING. Each stale record is FAILED with the reset message and keeps its path and creation time. The rest are unchanged, and the count matches |
| Worker.IsZipCreation | main.py:43 | an accepted event is a file whose path ends in a four-character extension starting with "." |
| Worker.ZipFilterIgnoresCase | main.py:43 | the watcher accepts exactly non-directories whose last four characters are "." then z, i and p in either case |
| Worker.OnCreated | main.py:42-46 | a matching event adds one PENDING record for the path, leaving the others unchanged. Any other event changes nothing |
| Worker.Step | main.py:60-76 | sleeps, with nothing changed, exactly when nothing is PENDING. Otherwise it takes the oldest PENDING task and marks it PROCESSING before `process_task`. A normal return makes it DONE; an exception makes it FAILED with the exception text. No other record changes, and the store stays initialised for the next pass. An interrupt leaves it PROCESSING after cleanup |
| Worker.RunTask | main.py:63-72 | the dequeued task is PROCESSING while `process_task` runs. A normal return makes it DONE, an exception makes it FAILED with the exception text, and an interrupt leaves it PROCESSING |
| Worker.InterruptedTaskFailsOnRestart | main.py:37-38 | a record left PROCESSING by an interrupted run is FAILED with the reset message on restart and is never dequeued again |

## Left out

- Blender, xremesh, zipfile, glob, os.listdir, shutil and sqlite3 are not run.
  What they return or raise is an input (`World`, the stdout text, the exit
  code). converter.py and utils/zip.py are not part of this model. The
  exceptions `unzip_file` raises are kept: its two messages, and the text of
  any other exception `extractall` lets through.
- Logging, YAML configuration, `time.sleep`, the watchdog observer thread, and
  any interleaving of watcher and worker are left out; each call is one step.
- `uuid4()` and `datetime.now()` are parameters. Timestamps are integers;
  ISO-8601 strings from one clock sort in time order, as `ORDER BY created_at`
  needs.
- TaskStore.GetNextTask: among PENDING records with the same creation time it
  may return any of them, because SQLite does not fix that order.
- Remesher.TargetQuadCount: the source multiplies by the floats 0.05, 0.1 and
  0.25 and truncates with `int`. The model divides by 20, 10 and 4 instead.
  - It assumes `int(T * f) == T // d` for each tier. Rounding can break this
    either way. T = 100000000000000019 becomes the float 100000000000000016.0,
    so `int(T * 0.05)` is 5000000000000001 while T // 20 is 5000000000000000.
  - A count of 2^1024 or more makes `T * 0.05` raise OverflowError. The model
    never fails there.
- Remesher.TriangleCount: `isdigit` is taken to accept only ASCII 0-9. Python
  also accepts other Unicode digits, where `int` then may or may not succeed.
- Worker.IsZipCreation: only ASCII letters are lower-cased. No non-ASCII
  character lower-cases to text ending in ".", "z", "i" or "p", so the ".zip"
  test is the same.
- NameCodec: Python strings may hold lone surrogates, which Dafny characters
  cannot. `encode("utf-8")` of such a name raises, and that case is not
  modelled.
- Pipeline.ProcessTask: the only exceptions modelled are the ones the code
  raises itself (unpacking, no files, all failed) and the pack and move
  errors. Failures of `os.makedirs`, `os.listdir` or `os.rename`, or an
  exception from `to_ascii` inside the loop, are left out.
  - `shutil.rmtree(..., ignore_errors=True)` is taken to always remove the
    directory.
  - The archive's contents are the renamed directory listing (see the
    overwrite under `Pipeline.RenameAll` below); its file contents are not
    modelled.
- Worker.Step: a keyboard interrupt is modelled only while `process_task`
  runs, and as arriving before the archive is delivered. The record stays
  PROCESSING, the work directory and name map are cleaned up, and no archive
  appears.
- Worker.Step: database failures other than `init_db` not having been called
  are not modelled.
  In the program, a failing `update_status` to PROCESSING or DONE
  (main.py:66, 68) sits inside the `try` at main.py:65. The handler at
  main.py:70-72 catches it and marks the task FAILED with its text. A failing
  `get_next_task` (main.py:61), or a failing FAILED update inside the handler
  (main.py:72), ends the loop. The model's only database error is
  `TaskStore.NotInitialized`, for `DB_PATH` still unset (db/database.py:31-32,
  45-46, 65-66, 86-87). `get_next_task` raises it first, so the model shows it
  as the `Err` result, and the updates after it cannot fail. Errors from
  SQLite itself, such as a missing table, are not modelled.
- `cleanup.py` is folded in: `cleanup_stale_tasks` is `Worker.Startup`.
  `cleanup_workdir` and `cleanup_ascii_map` are the `finally` clause of
  `Pipeline.ProcessTask`. The `try` around `clear_map` never fires in this
  model, because clearing cannot fail here.
- Remesher.RunXremesh: the settings file carries the input and output paths
  as given. The program writes `os.path.abspath` of them (remesher.py:83-84),
  which resolves a relative path against the working directory. The model
  does not do that resolution.
- Remesher.RunXremesh: the settings file is written before the `try` at
  remesher.py:94. A failed write raises and leaves the `mkdtemp` directory
  behind. The model takes the write to succeed.
- Common.PathJoin: `os.path.join` drops nothing and adds no "/" after an empty
  directory or one already ending in "/". The model always inserts "/", so it
  assumes the configured work and output roots are non-empty and do not end in
  "/".
- Paths follow POSIX `os.path` and glob: `BaseName` splits only on "/".
  The program drives `xremesh.exe` (remesher.py:64, 94), and on Windows
  `os.path.basename` also splits on `\` and glob joins with `\`. There
  `OriginalBase` of a `\`-joined path would be the whole path, which the
  model does not cover.
- Pipeline.RenameAll: `os.rename` (pipeline.py:90) overwrites an existing
  file, and the model does not. Suppose "ch_e7bb93.obj" is globbed before
  "结.obj". Then "ch_e7bb93_remeshed.obj" is renamed onto "结_remeshed.obj",
  and the real archive holds one file where the model lists both names.
- The per-file error messages are logged but never stored, so only whether a
  stage failed is modelled, not its text (apart from xremesh's).

## Where the code and its comments differ

The model follows the code in each of these cases.

- Renaming back to original names. The comment at pipeline.py:78 says the
  files in blenderobj named after the ASCII base plus "_remeshed" are
  renamed to the Chinese name before packing.
  - The code already writes each OBJ under its original base
    (pipeline.py:62). Only the intermediate FBX files use the ASCII base.
  - So the rename loop (pipeline.py:79-91) only acts on files in blenderobj
    whose names start with an ASCII base followed by "_remeshed".
  - For names without CJK characters the ASCII base equals the original, and
    renaming changes nothing (`Pipeline.NoCjkNoRename`).
- The name round trip. The docstrings of `to_ascii` and `from_ascii`
  (utils/chinese_ascii.py:34, 53) show '结节' becoming 'ch_e7bb93e7ab8b' and
  back. That holds for names with a CJK character and for recorded names
  (`NameCodec.RoundTrip`). A name without one passes through `to_ascii`
  unchanged and survives `from_ascii` exactly when it does not parse as a
  code (`NameCodec.PassThroughRoundTrip`). So "ch_41" comes back as "A"
  (`NameCodec.AsciiNameDoesNotRoundTrip`).
- The Blender log is packed. Each conversion appends to `blender_convert.log`
  in the directory of its output (converter.py:88-89). For the conversion
  back to OBJ that directory is blenderobj, which pipeline.py:96 packs whole.
  The model packs whatever the listing of blenderobj contains.

=== FILE: common.dfy ===
/** Small shared vocabulary: optional values, results carrying an error, and
    the handful of string helpers the daemon's Python code gets from `str` and
    `os.path`. */
module Common {

  /** An absent or present value (Python's `None` or a value). */
  datatype Option<+T> = None | Some(value: T)

  /** The outcome of an operation that may raise: `Err` stands for the raised
      exception. */
  datatype Result<+T, +E> = Ok(value: T) | Err(error: E)

  /** An octet, as produced by Python's `str.encode` and consumed by
      `bytes.decode`. */
  type byte = x: int | 0 <= x < 256

  predicate StartsWith(s: string, prefix: string)
  {
    |prefix| <= |s| && s[..|prefix|] == prefix
  }

  predicate EndsWith(s: string, suffix: string)
  {
    |suffix| <= |s| && s[|s| - |suffix|..] == suffix
  }

  /** Lower-cases the ASCII letters A-Z and leaves every other character alone. */
  function AsciiLowerChar(c: char): (d: char)
    ensures 'A' <= c <= 'Z' ==> d as int == c as int + 32
    ensures !('A' <= c <= 'Z') ==> d == c
  {
    if 'A' <= c <= 'Z' then (c as int + 32) as char else c
  }

  function AsciiLower(s: string): (t: string)
    ensures |t| == |s|
    ensures forall i :: 0 <= i < |s| ==> t[i] == AsciiLowerChar(s[i])
  {
    if s == [] then [] else [AsciiLowerChar(s[0])] + AsciiLower(s[1..])
  }

  /** `os.path.join` on a POSIX system, for a non-empty `dir` that does not
      end in "/" and a relative second component. */
  function PathJoin(dir: string, name: string): string
  {
    dir + "/" + name
  }
}

=== FILE: hex.dfy ===
/** Hexadecimal text for byte strings: Python's `bytes.hex()` (always lower
    case) and `bytes.fromhex` (either case, an even number of digits). */
module Hex {
  import opened Common

  predicate IsLowerHexDigit(c: char)
  {
    '0' <= c <= '9' || 'a' <= c <= 'f'
  }

  predicate IsHexDigit(c: char)
  {
    IsLowerHexDigit(c) || 'A' <= c <= 'F'
  }

  /** The lower-case digit for a nibble. */
  function DigitChar(n: int): (c: char)
    requires 0 <= n < 16
    ensures IsLowerHexDigit(c)
  {
    if n < 10 then ('0' as int + n) as char else ('a' as int + n - 10) as char
  }

  /** The nibble a digit of either case stands for, or None for a non-digit. */
  function DigitValue(c: char): (r: Option<int>)
    ensures r.Some? <==> IsHexDigit(c)
    ensures r.Some? ==> 0 <= r.value < 16
  {
    if '0' <= c <= '9' then Some(c as int - '0' as int)
    else if 'a' <= c <= 'f' then Some(c as int - 'a' as int + 10)
    else if 'A' <= c <= 'F' then Some(c as int - 'A' as int + 10)
    else None
  }

  /** `bytes.hex()`: two lower-case digits per byte, high nibble first. */
  function Encode(bs: seq<byte>): (s: string)
    ensures |s| == 2 * |bs|
    ensures forall i :: 0 <= i < |s| ==> IsLowerHexDigit(s[i])
  {
    if bs == [] then [] else [DigitChar(bs[0] / 16), DigitChar(bs[0] % 16)] + Encode(bs[1..])
  }

  /** `bytes.fromhex` on text without white space: None where Python raises
      ValueError (an odd number of digits or a non-digit). */
  function Decode(s: string): (r: Option<seq<byte>>)
    ensures r.Some? ==> 2 * |r.value| == |s|
  {
    if |s| == 0 then Some([])
    else if |s| == 1 then None
    else
      match (DigitValue(s[0]), DigitValue(s[1]), Decode(s[2..]))
      case (Some(h), Some(l), Some(rest)) => Some([h * 16 + l] + rest)
      case _ => None
  }

  lemma DigitRoundTrip(n: int)
    requires 0 <= n < 16
    ensures DigitValue(DigitChar(n)) == Some(n)
  {
  }

  /** Decoding recovers every byte string from its hex text. */
  lemma {:induction false} DecodeEncode(bs: seq<byte>)
    ensures Decode(Encode(bs)) == Some(bs)
  {
    if bs != [] {
      var s := Encode(bs);
      assert s[2..] == Encode(bs[1..]);
      DigitRoundTrip(bs[0] / 16);
      DigitRoundTrip(bs[0] % 16);
      DecodeEncode(bs[1..]);
      assert [bs[0]] + bs[1..] == bs;
    }
  }

  /** The converse: text that decodes is the encoding of its bytes up to the
      case of its letters, so `Encode` and `Decode` are inverse on lower-case
      text. */
  lemma {:induction false} EncodeDecode(s: string, bs: seq<byte>)
    requires Decode(s) == Some(bs)
    ensures Encode(bs) == AsciiLower(s)
  {
    if |s| > 0 {
      var h := DigitValue(s[0]).value;
      var l := DigitValue(s[1]).value;
      var rest := Decode(s[2..]).value;
      assert bs == [h * 16 + l] + rest;
      EncodeDecode(s[2..], rest);
      assert DigitChar(h) == AsciiLowerChar(s[0]);
      assert DigitChar(l) == AsciiLowerChar(s[1]);
      assert AsciiLower(s) == [AsciiLowerChar(s[0]), AsciiLowerChar(s[1])] + AsciiLower(s[2..]);
    }
  }

  /** Upper-case digits are accepted: text whose lower-cased form is an
      encoding decodes to the encoded bytes. */
  lemma {:induction false} DecodeIgnoresCase(s: string, bs: seq<byte>)
    requires AsciiLower(s) == Encode(bs)
    ensures Decode(s) == Some(bs)
  {
    if bs != [] {
      var e := Encode(bs);
      assert |s| == |e|;
      assert AsciiLowerChar(s[0]) == DigitChar(bs[0] / 16);
      assert AsciiLowerChar(s[1]) == DigitChar(bs[0] % 16);
      assert DigitValue(s[0]) == Some(bs[0] / 16);
      assert DigitValue(s[1]) == Some(bs[0] % 16);
      assert AsciiLower(s[2..]) == AsciiLower(s)[2..];
      assert e[2..] == Encode(bs[1..]);
      DecodeIgnoresCase(s[2..], bs[1..]);
      assert [bs[0]] + bs[1..] == bs;
    }
  }
}

=== FILE: name_codec.dfy ===
/** The reversible transcoding between display names and ASCII-safe names of
    utils/chinese_ascii.py. A name holding a CJK unified ideograph
    (U+4E00-U+9FFF) is replaced by "ch_" and the lower-case hex of its UTF-8
    bytes; every such replacement is recorded in a forward map (name to code)
    and a reverse map (code to name).

    The Python module reloads both maps from a JSON file before each lookup,
    saves them after every change and deletes the file when it clears them, so
    the file always mirrors memory: a `NameMap` value here is that persisted
    table, and loading and saving are the identity. */
module NameCodec {
  import opened Common
  import Hex
  import Utf8

  /** `_ascii_map` (original name to code) and `_chinese_map` (code to
      original name). */
  datatype NameMap = NameMap(forward: map<string, string>, reverse: map<string, string>)

  const Empty := NameMap(map[], map[])

  const Prefix := "ch_"

  predicate IsCjk(c: char)
  {
    0x4E00 <= c as int <= 0x9FFF
  }

  predicate IsAscii(s: string)
  {
    forall i :: 0 <= i < |s| ==> s[i] as int < 0x80
  }

  /** `re.search(r"[\u4e00-\u9fff]", name)` finds a match; such a name is never
      ASCII, so it is never its own code. */
  predicate HasCjk(name: string): (b: bool)
    ensures b ==> name != [] && !IsAscii(name)
  {
    exists i :: 0 <= i < |name| && IsCjk(name[i])
  }

  /** The code `to_ascii` derives for a new CJK name. */
  function EncodeName(name: string): string
  {
    Prefix + Hex.Encode(Utf8.Encode(name))
  }

  /** The captured group of `^ch_(\w+)$`. Python's `$` also matches just before
      a final newline, so one trailing "\n" is not part of the group. Whether
      the group consists of word characters is not checked here: every hex
      digit is a word character, so a group with a non-word character would
      fail the hex decoding that follows anyway, with the same pass-through
      outcome. */
  function Payload(code: string): (r: Option<string>)
    ensures r.Some? <==> StartsWith(code, Prefix)
    ensures r.Some? ==>
              if |code| > |Prefix| && code[|code| - 1] == '\n' then code == Prefix + r.value + "\n"
              else code == Prefix + r.value
    ensures r.Some? ==> |r.value| < |code|
  {
    if !StartsWith(code, Prefix) then None
    else
      var body := code[|Prefix|..];
      if |body| > 0 && body[|body| - 1] == '\n' then Some(body[..|body| - 1]) else Some(body)
  }

  /** The name `from_ascii` recovers by parsing a code: None when the pattern
      does not match (which includes an empty group, since `\w+` needs one
      character), or when `bytes.fromhex` or the UTF-8 decoding raises. */
  function DecodeCode(code: string): (r: Option<string>)
    ensures r.Some? ==> r.value != [] && |r.value| < |code|
  {
    match Payload(code)
    case None => None
    case Some(p) =>
      if |p| == 0 then None
      else
        match Hex.Decode(p)
        case None => None
        case Some(bs) => Utf8.Decode(bs)
  }

  /** `to_ascii`: the new table and the returned name. */
  function ToAscii(m: NameMap, name: string): (r: (NameMap, string))
    ensures name in m.forward ==> r == (m, m.forward[name])
    ensures name !in m.forward && HasCjk(name) ==>
              && r.1 == EncodeName(name)
              && IsAscii(r.1)
              && StartsWith(r.1, Prefix)
              && DecodeCode(r.1) == Some(name)
              && r.0 == NameMap(m.forward[name := r.1], m.reverse[r.1 := name])
    ensures name !in m.forward && !HasCjk(name) ==> r == (m, name)
  {
    if name in m.forward then (m, m.forward[name])
    else if HasCjk(name) then
      var code := EncodeName(name);
      EncodeNameIsAscii(name);
      DecodeEncodeName(name);
      (NameMap(m.forward[name := code], m.reverse[code := name]), code)
    else (m, name)
  }

  /** `from_ascii`: the new table and the returned name. */
  function FromAscii(m: NameMap, code: string): (r: (NameMap, string))
    ensures code in m.reverse ==> r == (m, m.reverse[code])
    ensures code !in m.reverse && DecodeCode(code).Some? ==>
              var name := DecodeCode(code).value;
              && r.1 == name
              && r.0 == NameMap(m.forward[name := code], m.reverse[code := name])
    ensures code !in m.reverse && DecodeCode(code).None? ==> r == (m, code)
  {
    if code in m.reverse then (m, m.reverse[code])
    else
      match DecodeCode(code)
      case Some(name) => (NameMap(m.forward[name := code], m.reverse[code := name]), name)
      case None => (m, code)
  }

  /** `clear_map`: both maps emptied and the file removed. */
  function ClearMap(): (r: NameMap)
    ensures r.forward == map[] && r.reverse == map[]
    ensures Coherent(r)
  {
    Empty
  }

  lemma EncodeNameIsAscii(name: string)
    ensures IsAscii(EncodeName(name)) && StartsWith(EncodeName(name), Prefix)
  {
    var h := Hex.Encode(Utf8.Encode(name));
    forall i | 0 <= i < |EncodeName(name)|
      ensures EncodeName(name)[i] as int < 0x80
    {
      if i >= 3 {
        assert EncodeName(name)[i] == h[i - 3];
      }
    }
    assert EncodeName(name)[..|Prefix|] == Prefix;
  }

  /** A non-empty name is recovered from its code by parsing alone. */
  lemma DecodeEncodeName(name: string)
    requires name != []
    ensures DecodeCode(EncodeName(name)) == Some(name)
  {
    var bs := Utf8.Encode(name);
    var h := Hex.Encode(bs);
    assert EncodeName(name)[|Prefix|..] == h;
    assert |h| > 0;
    assert h[|h| - 1] != '\n';
    assert Payload(EncodeName(name)) == Some(h);
    Hex.DecodeEncode(bs);
    Utf8.DecodeEncode(name);
  }

  /** Parsing accepts exactly the codes of non-empty names, up to the case of
      the hex letters and one trailing newline. */
  lemma DecodeCodeExactly(code: string, name: string)
    ensures DecodeCode(code) == Some(name) <==>
              && Payload(code).Some?
              && name != []
              && AsciiLower(Payload(code).value) == Hex.Encode(Utf8.Encode(name))
  {
    if DecodeCode(code) == Some(name) {
      var p := Payload(code).value;
      var bs := Hex.Decode(p).value;
      Hex.EncodeDecode(p, bs);
      Utf8.EncodeDecode(bs, name);
      assert |p| > 0 && |bs| > 0;
    }
    if Payload(code).Some? && name != [] && AsciiLower(Payload(code).value) == Hex.Encode(Utf8.Encode(name)) {
      var p := Payload(code).value;
      var bs := Utf8.Encode(name);
      Hex.DecodeIgnoresCase(p, bs);
      Utf8.DecodeEncode(name);
    }
  }

  /** What the two maps always satisfy: every recorded code parses back to its
      recorded name, and every forward entry has its reverse entry. */
  ghost predicate Coherent(m: NameMap)
  {
    && (forall c :: c in m.reverse ==> DecodeCode(c) == Some(m.reverse[c]))
    && (forall n :: n in m.forward ==> m.forward[n] in m.reverse && m.reverse[m.forward[n]] == n)
  }

  lemma ToAsciiKeepsCoherent(m: NameMap, name: string)
    requires Coherent(m)
    ensures Coherent(ToAscii(m, name).0)
  {
    if name !in m.forward && HasCjk(name) {
      var code := ToAscii(m, name).1;
      forall n | n in m.forward
        ensures m.forward[n] != code
      {
      }
    }
  }

  lemma FromAsciiKeepsCoherent(m: NameMap, code: string)
    requires Coherent(m)
    ensures Coherent(FromAscii(m, code).0)
  {
  }

  /** The round-trip law: from a coherent table, decoding what `to_ascii`
      returned gives back the name, for every name with a CJK character and
      every name already in the table. */
  lemma RoundTrip(m: NameMap, name: string)
    requires Coherent(m)
    requires HasCjk(name) || name in m.forward
    ensures var (m1, code) := ToAscii(m, name); FromAscii(m1, code).1 == name
  {
  }

  /** The round trip starting from a cleared table. */
  lemma RoundTripFromEmpty(name: string)
    requires HasCjk(name)
    ensures var (m1, code) := ToAscii(ClearMap(), name); FromAscii(m1, code) == (m1, name)
  {
  }

  /** `to_ascii` is idempotent: asking again gives the same code and leaves the
      table as the first call left it. */
  lemma ToAsciiIdempotent(m: NameMap, name: string)
    ensures var (m1, code) := ToAscii(m, name); ToAscii(m1, name) == (m1, code)
  {
  }

  /** The pass-through half of the round trip, for every name: a name with no
      CJK character that the table does not hold comes back from
      `from_ascii(to_ascii(name))` exactly when it does not parse as a code. */
  lemma PassThroughRoundTrip(m: NameMap, name: string)
    requires Coherent(m)
    requires !HasCjk(name) && name !in m.forward
    ensures var (m1, code) := ToAscii(m, name);
            FromAscii(m1, code).1 == name <==> DecodeCode(name).None?
  {
    if name in m.reverse {
      assert DecodeCode(name) == Some(m.reverse[name]);
    }
  }

  /** An ASCII name can be its own code yet parse as another name: "ch_41"
      has no CJK character, so `to_ascii` returns it unchanged and records
      nothing, while `from_ascii` parses it as the hex of "A". */
  lemma AsciiNameDoesNotRoundTrip()
    ensures ToAscii(Empty, "ch_41") == (Empty, "ch_41")
    ensures FromAscii(Empty, "ch_41").1 == "A"
  {
    assert !HasCjk("ch_41");
    assert Payload("ch_41") == Some("41");
    var b: seq<byte> := [0x41];
    assert Hex.DigitValue('4') == Some(4) && Hex.DigitValue('1') == Some(1);
    assert "41"[2..] == "" && Hex.Decode("") == Some([]);
    assert [4 * 16 + 1] + [] == b;
    assert Hex.Decode("41") == Some(b);
    assert Utf8.DecodeFirst(b) == Some(('A', 1));
    assert b[1..] == [] && Utf8.Decode([]) == Some([]);
    assert ['A'] + [] == "A";
  }

  /** A name that `from_ascii` parsed is afterwards encoded by `to_ascii` to the
      very code it was parsed from, even when that code used upper-case hex. */
  lemma FromAsciiThenToAscii(m: NameMap, code: string)
    requires code !in m.reverse && DecodeCode(code).Some?
    ensures var (m1, name) := FromAscii(m, code); ToAscii(m1, name) == (m1, code)
  {
  }
}

=== FILE: pipeline.dfy ===
/** `process_task` of pipeline.py: unpack the task's archive, push every .obj
    file through FBX conversion, retopology and conversion back to OBJ while
    isolating per-file failures, restore original names, pack and deliver the
    result, and always remove the work directory and clear the name map.

    Everything outside the daemon (the archive library, glob, Blender, xremesh,
    the file system calls) is a field of `World`: the model fixes what each of
    them returned or raised during one call, and computes everything the
    daemon itself decides from those answers. */
module Pipeline {
  import opened Common
  import NameCodec
  import Remesher

  /** How `unzip_file` ends: the archive is missing (FileNotFoundError), is not
      a valid archive (BadZipFile, re-raised as RuntimeError), `extractall`
      raises something else that passes through unwrapped (an encrypted member,
      a failed write) with the given text, or the archive extracts. */
  datatype Unzip = Extracted | Missing | Corrupt(reason: string) | Raised(message: string)

  /** What Blender prints when counting triangles, and how xremesh exits, for
      one file; `tempDir` is the directory `mkdtemp` creates. */
  datatype RemeshIo = RemeshIo(countStdout: string, tempDir: string, exitCode: int, stderr: string)

  datatype World = World(
    unzip: Unzip,
    /** The paths the recursive `glob` for "*.obj" returns after extraction. */
    objFiles: seq<string>,
    /** The exception text `convert_to_fbx` raises for a source file, if any. */
    toFbxError: string -> Option<string>,
    remeshIo: string -> RemeshIo,
    /** The exception text `convert_to_obj` raises for a source file, if any. */
    toObjError: string -> Option<string>,
    /** The regular files `os.listdir` finds in blenderobj after the loop. */
    outputListing: seq<string>,
    packError: Option<string>,
    moveError: Option<string>)

  /** The daemon's durable side effects outside the task table: work
      directories (by task id), delivered archives (name to packed file
      names) and the persisted name map. */
  datatype Disk = Disk(workDirs: set<string>, outputs: map<string, seq<string>>, names: NameCodec.NameMap)

  const NoObjMessage := "No .obj files found in zip."
  const AllFailedMessage := "All .obj files failed to process."
  const RemeshedSuffix := "_remeshed"

  function ArchiveName(id: string): string
  {
    id + "_out.zip"
  }

  function UnzipMessage(u: Unzip, sourcePath: string): string
  {
    match u
    case Missing => "Zip file not found: " + sourcePath
    case Corrupt(reason) => "Failed to unzip file: " + sourcePath + ". Reason: " + reason
    case Raised(message) => message
    case Extracted => ""
  }

  // ---------------------------------------------------------------- names

  function LastIndexOf(s: string, c: char): (r: Option<nat>)
    ensures r.Some? ==> r.value < |s| && s[r.value] == c
    ensures r.Some? ==> forall i :: r.value < i < |s| ==> s[i] != c
    ensures r.None? ==> forall i :: 0 <= i < |s| ==> s[i] != c
  {
    if s == [] then None
    else if s[|s| - 1] == c then Some(|s| - 1)
    else LastIndexOf(s[..|s| - 1], c)
  }

  /** `os.path.basename`: what follows the last "/". */
  function BaseName(path: string): string
  {
    match LastIndexOf(path, '/')
    case Some(i) => path[i + 1..]
    case None => path
  }

  /** The root of `os.path.splitext` on a base name: cut at the last "." unless
      only dots precede it. */
  function StripExtension(name: string): string
  {
    match LastIndexOf(name, '.')
    case Some(d) => if exists j :: 0 <= j < d && name[j] != '.' then name[..d] else name
    case None => name
  }

  /** `os.path.splitext(os.path.basename(path))[0]`. */
  function OriginalBase(path: string): string
  {
    StripExtension(BaseName(path))
  }

  /** The original base is a piece of the path's last component: no longer
      than the path, and free of "/". */
  lemma OriginalBaseInLastComponent(path: string)
    ensures |OriginalBase(path)| <= |path|
    ensures forall i :: 0 <= i < |OriginalBase(path)| ==> OriginalBase(path)[i] != '/'
  {
    var b := BaseName(path);
    var r := StripExtension(b);
    assert |r| <= |b| && forall i :: 0 <= i < |r| ==> r[i] == b[i];
    match LastIndexOf(path, '/')
    case Some(k) =>
      assert forall i :: 0 <= i < |b| ==> b[i] == path[k + 1 + i];
    case None =>
  }

  /** For the names the .obj glob returns (not hidden, ending in ".obj"), the
      original base is the name without ".obj". */
  lemma OriginalBaseOfObj(dir: string, stem: string)
    requires stem != [] && stem[0] != '.'
    requires forall i :: 0 <= i < |stem| ==> stem[i] != '/'
    ensures OriginalBase(PathJoin(dir, stem + ".obj")) == stem
  {
    var path := PathJoin(dir, stem + ".obj");
    var name := stem + ".obj";
    assert path == dir + "/" + name;
    assert path[|dir|] == '/';
    assert forall i :: |dir| < i < |path| ==> path[i] == name[i - |dir| - 1];
    assert LastIndexOf(path, '/') == Some(|dir|);
    assert BaseName(path) == name;
    assert name[|stem|] == '.' && name[|stem| + 1..] == "obj";
    assert LastIndexOf(name, '.') == Some(|stem|);
    assert name[0] != '.';
    assert name[..|stem|] == stem;
  }

  // ------------------------------------------------- the ascii2orig table

  /** A Python dict from ASCII base to original base, in insertion order. */
  type Table = seq<(string, string)>

  predicate HasKey(t: Table, k: string)
  {
    exists i :: 0 <= i < |t| && t[i].0 == k
  }

  predicate UniqueKeys(t: Table)
  {
    forall i, j :: 0 <= i < j < |t| ==> t[i].0 != t[j].0
  }

  /** `t[k] = v`: an existing key keeps its place and takes the new value, a
      new key goes to the end. */
  function Put(t: Table, k: string, v: string): (r: Table)
    ensures |t| <= |r| <= |t| + 1
    ensures forall i :: 0 <= i < |t| ==> r[i].0 == t[i].0
    ensures forall i :: 0 <= i < |r| ==> r[i] == (k, v) || (i < |t| && r[i] == t[i])
  {
    if t == [] then [(k, v)]
    else if t[0].0 == k then [(k, v)] + t[1..]
    else [t[0]] + Put(t[1..], k, v)
  }

  /** `Put` is dict assignment: afterwards `k` is a key with value `v`, no other
      entry changes, a new key is appended and an existing one stays in place. */
  lemma {:induction false} PutIsAssignment(t: Table, k: string, v: string)
    requires UniqueKeys(t)
    ensures var r := Put(t, k, v);
            && UniqueKeys(r)
            && HasKey(r, k)
            && (forall i :: 0 <= i < |r| && r[i].0 == k ==> r[i].1 == v)
            && (forall i :: 0 <= i < |t| && t[i].0 != k ==> r[i] == t[i])
            && (HasKey(t, k) ==> |r| == |t|)
            && (!HasKey(t, k) ==> r == t + [(k, v)])
  {
    var r := Put(t, k, v);
    if t == [] {
      assert r[0].0 == k;
    } else if t[0].0 == k {
      assert r[0].0 == k;
      assert forall i :: 1 <= i < |t| ==> r[i] == t[i];
      assert HasKey(t, k);
    } else {
      var rest := Put(t[1..], k, v);
      PutIsAssignment(t[1..], k, v);
      assert r == [t[0]] + rest;
      assert forall i :: 0 <= i < |t| - 1 ==> t[1..][i] == t[i + 1];
      PutConsKeys(t, k, v, rest, r);
      PutConsEntries(t, k, v, rest, r);
    }
  }

  /** The keys after putting past a first entry with another key: unique,
      with `k` among them holding `v`. */
  lemma PutConsKeys(t: Table, k: string, v: string, rest: Table, r: Table)
    requires t != [] && t[0].0 != k && UniqueKeys(t) && r == [t[0]] + rest
    requires UniqueKeys(rest) && HasKey(rest, k)
    requires forall i :: 0 <= i < |rest| && rest[i].0 == k ==> rest[i].1 == v
    requires forall i :: 0 <= i < |rest| ==> rest[i] == (k, v) || (i < |t| - 1 && rest[i] == t[i + 1])
    ensures UniqueKeys(r) && HasKey(r, k)
    ensures forall i :: 0 <= i < |r| && r[i].0 == k ==> r[i].1 == v
  {
    assert forall i :: 1 <= i < |r| ==> r[i] == rest[i - 1];
    var j :| 0 <= j < |rest| && rest[j].0 == k;
    assert r[j + 1].0 == k;
  }

  /** The entries after putting past a first entry with another key: the
      others stay, and a new key is appended. */
  lemma PutConsEntries(t: Table, k: string, v: string, rest: Table, r: Table)
    requires t != [] && t[0].0 != k && r == [t[0]] + rest
    requires var u := t[1..];
             && |u| <= |rest|
             && (forall i :: 0 <= i < |u| && u[i].0 != k ==> rest[i] == u[i])
             && (HasKey(u, k) ==> |rest| == |u|)
             && (!HasKey(u, k) ==> rest == u + [(k, v)])
    ensures forall i :: 0 <= i < |t| && t[i].0 != k ==> r[i] == t[i]
    ensures HasKey(t, k) ==> |r| == |t|
    ensures !HasKey(t, k) ==> r == t + [(k, v)]
  {
    var u := t[1..];
    assert forall i :: 1 <= i < |t| ==> t[i] == u[i - 1];
    if HasKey(t, k) {
      var m :| 0 <= m < |t| && t[m].0 == k;
      assert u[m - 1].0 == k;
    } else {
      assert !HasKey(u, k);
      assert t == [t[0]] + u;
    }
  }

  // ------------------------------------------------------ per-file stages

  /** Whether a source file survives all three stages. Only the external
      programs decide it; the names the daemon chooses play no part. */
  predicate Succeeds(w: World, objPath: string)
  {
    && w.toFbxError(objPath).None?
    && w.remeshIo(objPath).exitCode == 0
    && w.toObjError(objPath).None?
  }

  /** The exception the try block of the loop catches for one file, if any:
      `convert_to_fbx`, then `run_xremesh`, then `convert_to_obj`. */
  function StageError(w: World, objPath: string, fbxPath: string, remeshedPath: string): (r: Option<string>)
    ensures r.None? <==> Succeeds(w, objPath)
  {
    if w.toFbxError(objPath).Some? then w.toFbxError(objPath)
    else
      var io := w.remeshIo(objPath);
      var run := Remesher.RunXremesh({}, io.tempDir, fbxPath, remeshedPath, io.countStdout, io.exitCode, io.stderr);
      if run.error.Some? then run.error
      else w.toObjError(objPath)
  }

  function FbxPath(taskDir: string, asciiBase: string): string
  {
    PathJoin(PathJoin(taskDir, "blenderfbx"), asciiBase + ".fbx")
  }

  function RemeshedPath(taskDir: string, asciiBase: string): string
  {
    PathJoin(PathJoin(taskDir, "xremeshfbx"), asciiBase + RemeshedSuffix + ".fbx")
  }

  /** The OBJ a processed file ends as; it already carries the original base. */
  function OutputPath(taskDir: string, objPath: string): string
  {
    PathJoin(PathJoin(taskDir, "blenderobj"), OriginalBase(objPath) + RemeshedSuffix + ".obj")
  }

  /** The loop's accumulated state: `processed`, `failed`, `ascii2orig` and the
      name map that `to_ascii` updates as it goes. */
  datatype Acc = Acc(processed: seq<string>, failed: seq<string>, asciiToOrig: Table, names: NameCodec.NameMap)

  /** One iteration of `for obj_path in obj_files`. */
  function Step(w: World, taskDir: string, acc: Acc, objPath: string): Acc
  {
    var original := OriginalBase(objPath);
    var (names, ascii) := NameCodec.ToAscii(acc.names, original);
    var table := Put(acc.asciiToOrig, ascii, original);
    match StageError(w, objPath, FbxPath(taskDir, ascii), RemeshedPath(taskDir, ascii))
    case None => Acc(acc.processed + [OutputPath(taskDir, objPath)], acc.failed, table, names)
    case Some(_) => Acc(acc.processed, acc.failed + [objPath], table, names)
  }

  /** The whole loop, a left fold of `Step` over the files in glob order. */
  function RunFiles(w: World, taskDir: string, files: seq<string>, acc: Acc): Acc
    decreases |files|
  {
    if files == [] then acc else RunFiles(w, taskDir, files[1..], Step(w, taskDir, acc, files[0]))
  }

  /** The files that survive, in order. */
  function Survivors(w: World, files: seq<string>): (r: seq<string>)
    ensures |r| <= |files|
  {
    if files == [] then []
    else (if Succeeds(w, files[0]) then [files[0]] else []) + Survivors(w, files[1..])
  }

  /** The files that fail some stage, in order. */
  function Casualties(w: World, files: seq<string>): (r: seq<string>)
    ensures |r| <= |files|
  {
    if files == [] then []
    else (if Succeeds(w, files[0]) then [] else [files[0]]) + Casualties(w, files[1..])
  }

  function OutputPaths(taskDir: string, files: seq<string>): (r: seq<string>)
    ensures |r| == |files|
    ensures forall i :: 0 <= i < |files| ==> r[i] == OutputPath(taskDir, files[i])
  {
    seq(|files|, i requires 0 <= i < |files| => OutputPath(taskDir, files[i]))
  }

  lemma OutputPathsAppend(taskDir: string, a: seq<string>, b: seq<string>)
    ensures OutputPaths(taskDir, a + b) == OutputPaths(taskDir, a) + OutputPaths(taskDir, b)
  {
    var l := OutputPaths(taskDir, a + b);
    var r := OutputPaths(taskDir, a) + OutputPaths(taskDir, b);
    assert forall i :: 0 <= i < |l| ==> l[i] == r[i] by {
      forall i | 0 <= i < |l|
        ensures l[i] == r[i]
      {
        if i >= |a| {
          assert (a + b)[i] == b[i - |a|];
        }
      }
    }
  }

  /** Every file lands in exactly one of the two lists, so their sizes add up
      to the number of files. */
  lemma {:induction false} PartitionSizes(w: World, files: seq<string>)
    ensures |Survivors(w, files)| + |Casualties(w, files)| == |files|
    ensures |Survivors(w, files)| == 0 <==> forall i :: 0 <= i < |files| ==> !Succeeds(w, files[i])
  {
    if files != [] {
      var rest := files[1..];
      PartitionSizes(w, rest);
      if !Succeeds(w, files[0]) {
        assert forall j :: 0 <= j < |rest| ==> rest[j] == files[j + 1];
        assert forall i :: 1 <= i < |files| ==> files[i] == rest[i - 1];
      }
    }
  }

  /** One iteration appends the file's output path to `processed` when every
      stage succeeds, and the file itself to `failed` otherwise. */
  lemma StepSplits(w: World, taskDir: string, acc: Acc, objPath: string)
    ensures Step(w, taskDir, acc, objPath).processed
            == acc.processed + (if Succeeds(w, objPath) then [OutputPath(taskDir, objPath)] else [])
    ensures Step(w, taskDir, acc, objPath).failed
            == acc.failed + (if Succeeds(w, objPath) then [] else [objPath])
  {
  }

  /** The fold appends the survivors' outputs to `processed` and the other
      files to `failed`, in glob order. */
  lemma {:induction false} RunFilesSplits(w: World, taskDir: string, files: seq<string>, acc: Acc)
    ensures RunFiles(w, taskDir, files, acc).processed == acc.processed + OutputPaths(taskDir, Survivors(w, files))
    ensures RunFiles(w, taskDir, files, acc).failed == acc.failed + Casualties(w, files)
  {
    if files != [] {
      var next := Step(w, taskDir, acc, files[0]);
      assert RunFiles(w, taskDir, files, acc) == RunFiles(w, taskDir, files[1..], next);
      StepSplits(w, taskDir, acc, files[0]);
      RunFilesSplits(w, taskDir, files[1..], next);
      var head := if Succeeds(w, files[0]) then [files[0]] else [];
      assert Survivors(w, files) == head + Survivors(w, files[1..]);
      OutputPathsAppend(taskDir, head, Survivors(w, files[1..]));
    }
  }

  /** `to_ascii` of one name returns the same for every other name after the
      call as before it: the forward map only gains names it did not have. */
  lemma ToAsciiStable(m: NameCodec.NameMap, other: string, name: string)
    ensures NameCodec.ToAscii(NameCodec.ToAscii(m, other).0, name).1 == NameCodec.ToAscii(m, name).1
  {
  }

  /** What `ascii2orig` records, relative to the current name map: each entry
      maps `to_ascii(original)` to `original`. */
  ghost predicate TableAgrees(t: Table, names: NameCodec.NameMap)
  {
    forall i :: 0 <= i < |t| ==> NameCodec.ToAscii(names, t[i].1).1 == t[i].0
  }

  /** The fold keeps the name map coherent, keeps `ascii2orig` a dict that
      agrees with it, and records an entry for every file's ASCII base. */
  lemma {:induction false} RunFilesTable(w: World, taskDir: string, files: seq<string>, acc: Acc)
    requires NameCodec.Coherent(acc.names)
    requires UniqueKeys(acc.asciiToOrig) && TableAgrees(acc.asciiToOrig, acc.names)
    ensures var r := RunFiles(w, taskDir, files, acc);
            && NameCodec.Coherent(r.names)
            && UniqueKeys(r.asciiToOrig)
            && TableAgrees(r.asciiToOrig, r.names)
            && (forall i :: 0 <= i < |files| ==>
                  HasKey(r.asciiToOrig, NameCodec.ToAscii(r.names, OriginalBase(files[i])).1))
  {
    if files != [] {
      var next := Step(w, taskDir, acc, files[0]);
      StepTable(w, taskDir, acc, files[0]);
      RunFilesTable(w, taskDir, files[1..], next);
      var r := RunFiles(w, taskDir, files[1..], next);
      assert r == RunFiles(w, taskDir, files, acc);
      var original := OriginalBase(files[0]);
      KeysPersist(w, taskDir, files[1..], next, NameCodec.ToAscii(next.names, original).1);
      NameStable(w, taskDir, files[1..], next, original);
      forall i | 1 <= i < |files|
        ensures HasKey(r.asciiToOrig, NameCodec.ToAscii(r.names, OriginalBase(files[i])).1)
      {
        assert files[i] == files[1..][i - 1];
      }
    }
  }

  /** One iteration keeps the table a dict that agrees with the name map, and
      records the file's ASCII base. */
  lemma StepTable(w: World, taskDir: string, acc: Acc, objPath: string)
    requires NameCodec.Coherent(acc.names)
    requires UniqueKeys(acc.asciiToOrig) && TableAgrees(acc.asciiToOrig, acc.names)
    ensures var next := Step(w, taskDir, acc, objPath);
            && NameCodec.Coherent(next.names)
            && UniqueKeys(next.asciiToOrig)
            && TableAgrees(next.asciiToOrig, next.names)
            && HasKey(next.asciiToOrig, NameCodec.ToAscii(next.names, OriginalBase(objPath)).1)
  {
    var original := OriginalBase(objPath);
    var next := Step(w, taskDir, acc, objPath);
    var (names, ascii) := NameCodec.ToAscii(acc.names, original);
    assert next.names == names;
    assert next.asciiToOrig == Put(acc.asciiToOrig, ascii, original);
    PutIsAssignment(acc.asciiToOrig, ascii, original);
    NameCodec.ToAsciiKeepsCoherent(acc.names, original);
    NameCodec.ToAsciiIdempotent(acc.names, original);
    forall i | 0 <= i < |next.asciiToOrig|
      ensures NameCodec.ToAscii(names, next.asciiToOrig[i].1).1 == next.asciiToOrig[i].0
    {
      ToAsciiStable(acc.names, original, next.asciiToOrig[i].1);
    }
  }

  lemma {:induction false} KeysPersist(w: World, taskDir: string, files: seq<string>, acc: Acc, k: string)
    requires HasKey(acc.asciiToOrig, k)
    ensures HasKey(RunFiles(w, taskDir, files, acc).asciiToOrig, k)
  {
    if files != [] {
      var next := Step(w, taskDir, acc, files[0]);
      var i :| 0 <= i < |acc.asciiToOrig| && acc.asciiToOrig[i].0 == k;
      assert next.asciiToOrig[i].0 == k;
      KeysPersist(w, taskDir, files[1..], next, k);
    }
  }

  lemma {:induction false} NameStable(w: World, taskDir: string, files: seq<string>, acc: Acc, name: string)
    ensures NameCodec.ToAscii(RunFiles(w, taskDir, files, acc).names, name).1 == NameCodec.ToAscii(acc.names, name).1
  {
    if files != [] {
      var next := Step(w, taskDir, acc, files[0]);
      ToAsciiStable(acc.names, OriginalBase(files[0]), name);
      NameStable(w, taskDir, files[1..], next, name);
    }
  }

  // ------------------------------------------------------------- renaming

  function PrefixOf(entry: (string, string)): string
  {
    entry.0 + RemeshedSuffix
  }

  /** The inner loop of the rename before packing, for one file name: the first entry whose
      `ascii_base + "_remeshed"` starts the name replaces that prefix by
      `original_base + "_remeshed"`; a name no entry matches is kept. */
  function RenameOne(fname: string, t: Table): (r: string)
    ensures (forall j :: 0 <= j < |t| ==> !StartsWith(fname, PrefixOf(t[j]))) ==> r == fname
    ensures forall j :: 0 <= j < |t| && StartsWith(fname, PrefixOf(t[j]))
                        && (forall i :: 0 <= i < j ==> !StartsWith(fname, PrefixOf(t[i])))
                        ==> r == t[j].1 + RemeshedSuffix + fname[|PrefixOf(t[j])|..]
  {
    if t == [] then fname
    else if StartsWith(fname, PrefixOf(t[0])) then t[0].1 + RemeshedSuffix + fname[|PrefixOf(t[0])|..]
    else
      var r := RenameOne(fname, t[1..]);
      assert forall j :: 1 <= j < |t| ==> t[j] == t[1..][j - 1];
      r
  }

  /** Step 6 over the whole directory listing. */
  function RenameAll(listing: seq<string>, t: Table): (r: seq<string>)
    ensures |r| == |listing|
    ensures forall i :: 0 <= i < |listing| ==> r[i] == RenameOne(listing[i], t)
  {
    if listing == [] then [] else [RenameOne(listing[0], t)] + RenameAll(listing[1..], t)
  }

  /** When every ASCII base equals its original (no name needed encoding),
      renaming changes no file name. */
  lemma RenameKeepsPlainNames(listing: seq<string>, t: Table)
    requires forall i :: 0 <= i < |t| ==> t[i].0 == t[i].1
    ensures RenameAll(listing, t) == listing
  {
    var r := RenameAll(listing, t);
    forall k | 0 <= k < |listing|
      ensures r[k] == listing[k]
    {
      RenameOneKeepsPlainName(listing[k], t);
    }
  }

  lemma RenameOneKeepsPlainName(f: string, t: Table)
    requires forall i :: 0 <= i < |t| ==> t[i].0 == t[i].1
    ensures RenameOne(f, t) == f
  {
    if j :| 0 <= j < |t| && StartsWith(f, PrefixOf(t[j])) {
      var first := FirstMatch(f, t, j);
      var p := PrefixOf(t[first]);
      assert RenameOne(f, t) == t[first].1 + RemeshedSuffix + f[|p|..];
      assert t[first].1 + RemeshedSuffix == p;
      assert f == p + f[|p|..];
    }
  }

  /** The first table entry whose prefix starts `f`, given that some does. */
  lemma FirstMatch(f: string, t: Table, j: int) returns (first: int)
    requires 0 <= j < |t| && StartsWith(f, PrefixOf(t[j]))
    ensures 0 <= first <= j && StartsWith(f, PrefixOf(t[first]))
    ensures forall i :: 0 <= i < first ==> !StartsWith(f, PrefixOf(t[i]))
  {
    first := 0;
    while !StartsWith(f, PrefixOf(t[first]))
      invariant 0 <= first <= j
      invariant forall i :: 0 <= i < first ==> !StartsWith(f, PrefixOf(t[i]))
      decreases j - first
    {
      first := first + 1;
    }
  }

  /** Without CJK names the table maps every name to itself: the name map
      only ever holds names with a CJK character, so `to_ascii` returns each
      other name unchanged. */
  lemma {:induction false} PlainNamesGivePlainTable(w: World, taskDir: string, files: seq<string>, acc: Acc)
    requires forall n :: n in acc.names.forward ==> NameCodec.HasCjk(n)
    requires forall i :: 0 <= i < |files| ==> !NameCodec.HasCjk(OriginalBase(files[i]))
    requires forall i :: 0 <= i < |acc.asciiToOrig| ==> acc.asciiToOrig[i].0 == acc.asciiToOrig[i].1
    ensures var t := RunFiles(w, taskDir, files, acc).asciiToOrig;
            forall i :: 0 <= i < |t| ==> t[i].0 == t[i].1
  {
    if files != [] {
      var next := Step(w, taskDir, acc, files[0]);
      StepPlain(w, taskDir, acc, files[0]);
      RunFilesCons(w, taskDir, files, acc);
      forall i | 0 <= i < |files| - 1
        ensures !NameCodec.HasCjk(OriginalBase(files[1..][i]))
      {
        assert files[1..][i] == files[i + 1];
      }
      PlainNamesGivePlainTable(w, taskDir, files[1..], next);
    }
  }

  /** The fold takes one step off the front of the file list. */
  lemma RunFilesCons(w: World, taskDir: string, files: seq<string>, acc: Acc)
    requires files != []
    ensures RunFiles(w, taskDir, files, acc) == RunFiles(w, taskDir, files[1..], Step(w, taskDir, acc, files[0]))
  {
  }

  lemma StepPlain(w: World, taskDir: string, acc: Acc, objPath: string)
    requires forall n :: n in acc.names.forward ==> NameCodec.HasCjk(n)
    requires !NameCodec.HasCjk(OriginalBase(objPath))
    requires forall i :: 0 <= i < |acc.asciiToOrig| ==> acc.asciiToOrig[i].0 == acc.asciiToOrig[i].1
    ensures var next := Step(w, taskDir, acc, objPath);
            && next.names == acc.names
            && forall i :: 0 <= i < |next.asciiToOrig| ==> next.asciiToOrig[i].0 == next.asciiToOrig[i].1
  {
    var o := OriginalBase(objPath);
    assert NameCodec.ToAscii(acc.names, o) == (acc.names, o);
    var next := Step(w, taskDir, acc, objPath);
    assert next.asciiToOrig == Put(acc.asciiToOrig, o, o);
  }

  // ------------------------------------------------------- process_task

  /** The `ascii2orig` table and the name map once the loop is over. */
  function LoopResult(w: World, taskDir: string, names: NameCodec.NameMap): Acc
  {
    RunFiles(w, taskDir, w.objFiles, Acc([], [], [], names))
  }

  /** The try block: the raised message, or the delivered archive's name and
      packed file names. */
  function Body(w: World, taskDir: string, names: NameCodec.NameMap, id: string, sourcePath: string)
    : (r: Result<(string, seq<string>), string>)
    ensures !w.unzip.Extracted? ==> r == Err(UnzipMessage(w.unzip, sourcePath))
    ensures w.unzip.Extracted? && |w.objFiles| == 0 ==> r == Err(NoObjMessage)
    ensures w.unzip.Extracted? && |w.objFiles| > 0 && (forall i :: 0 <= i < |w.objFiles| ==> !Succeeds(w, w.objFiles[i]))
            ==> r == Err(AllFailedMessage)
    ensures r.Ok? <==>
              && w.unzip.Extracted?
              && (exists i :: 0 <= i < |w.objFiles| && Succeeds(w, w.objFiles[i]))
              && w.packError.None? && w.moveError.None?
    ensures r.Ok? ==> r.value == (ArchiveName(id), RenameAll(w.outputListing, LoopResult(w, taskDir, names).asciiToOrig))
    ensures w.unzip.Extracted? && (exists i :: 0 <= i < |w.objFiles| && Succeeds(w, w.objFiles[i])) ==>
              && (w.packError.Some? ==> r == Err(w.packError.value))
              && (w.packError.None? && w.moveError.Some? ==> r == Err(w.moveError.value))
  {
    LoopEmptyIffAllFail(w, taskDir, names);
    if !w.unzip.Extracted? then Err(UnzipMessage(w.unzip, sourcePath))
    else if |w.objFiles| == 0 then Err(NoObjMessage)
    else
      var acc := LoopResult(w, taskDir, names);
      if |acc.processed| == 0 then Err(AllFailedMessage)
      else
        var contents := RenameAll(w.outputListing, acc.asciiToOrig);
        if w.packError.Some? then Err(w.packError.value)
        else if w.moveError.Some? then Err(w.moveError.value)
        else Ok((ArchiveName(id), contents))
  }

  /** The loop produces no output exactly when every file fails a stage. */
  lemma LoopEmptyIffAllFail(w: World, taskDir: string, names: NameCodec.NameMap)
    ensures |LoopResult(w, taskDir, names).processed| == 0 <==>
              forall i :: 0 <= i < |w.objFiles| ==> !Succeeds(w, w.objFiles[i])
  {
    RunFilesSplits(w, taskDir, w.objFiles, Acc([], [], [], names));
    PartitionSizes(w, w.objFiles);
  }

  /** A task whose file names need no encoding is delivered under the names
      Blender wrote: the rename before packing changes nothing. This holds for any persisted name
      map that, like every map `to_ascii` builds, records only CJK names. */
  lemma NoCjkNoRename(w: World, taskDir: string, names: NameCodec.NameMap)
    requires forall n :: n in names.forward ==> NameCodec.HasCjk(n)
    requires forall i :: 0 <= i < |w.objFiles| ==> !NameCodec.HasCjk(OriginalBase(w.objFiles[i]))
    ensures RenameAll(w.outputListing, LoopResult(w, taskDir, names).asciiToOrig) == w.outputListing
  {
    var start := Acc([], [], [], names);
    PlainNamesGivePlainTable(w, taskDir, w.objFiles, start);
    assert LoopResult(w, taskDir, names) == RunFiles(w, taskDir, w.objFiles, start);
    RenameKeepsPlainNames(w.outputListing, LoopResult(w, taskDir, names).asciiToOrig);
  }

  /** What one `process_task` call leaves behind. */
  datatype TaskRun = TaskRun(disk: Disk, result: Result<string, string>)

  /** `process_task`: the try block, then the `finally` clause, which removes
      the task's work directory and clears the name map whatever happened. */
  function ProcessTask(w: World, workRoot: string, disk: Disk, id: string, sourcePath: string): (r: TaskRun)
    ensures r.disk.workDirs == disk.workDirs - {id}
    ensures r.disk.names == NameCodec.Empty
    ensures !w.unzip.Extracted? ==> r.result == Err(UnzipMessage(w.unzip, sourcePath))
    ensures w.unzip.Extracted? && |w.objFiles| == 0 ==> r.result == Err(NoObjMessage)
    ensures w.unzip.Extracted? && |w.objFiles| > 0 && (forall i :: 0 <= i < |w.objFiles| ==> !Succeeds(w, w.objFiles[i]))
            ==> r.result == Err(AllFailedMessage)
    ensures r.result.Ok? <==>
              && w.unzip.Extracted?
              && (exists i :: 0 <= i < |w.objFiles| && Succeeds(w, w.objFiles[i]))
              && w.packError.None? && w.moveError.None?
    ensures r.result.Ok? ==>
              && r.result.value == ArchiveName(id)
              && r.disk.outputs.Keys == disk.outputs.Keys + {ArchiveName(id)}
              && (forall a :: a in disk.outputs && a != ArchiveName(id) ==> r.disk.outputs[a] == disk.outputs[a])
              && r.disk.outputs[ArchiveName(id)]
                 == RenameAll(w.outputListing, LoopResult(w, PathJoin(workRoot, id), disk.names).asciiToOrig)
    ensures w.unzip.Extracted? && (exists i :: 0 <= i < |w.objFiles| && Succeeds(w, w.objFiles[i])) ==>
              && (w.packError.Some? ==> r.result == Err(w.packError.value))
              && (w.packError.None? && w.moveError.Some? ==> r.result == Err(w.moveError.value))
    ensures r.result.Err? ==> r.disk.outputs == disk.outputs
  {
    var taskDir := PathJoin(workRoot, id);
    var started := disk.workDirs + {id};
    var body := Body(w, taskDir, disk.names, id, sourcePath);
    var outputs := match body
      case Ok((name, contents)) => disk.outputs[name := contents]
      case Err(_) => disk.outputs;
    var result := match body
      case Ok((name, _)) => Ok(name)
      case Err(e) => Err(e);
    TaskRun(Disk(started - {id}, outputs, NameCodec.ClearMap()), result)
  }

  /** The loop's bookkeeping for a task that reaches it: every file is either
      processed or failed, and the failures are exactly the files some stage
      rejected. */
  lemma LoopAccounts(w: World, taskDir: string, names: NameCodec.NameMap)
    requires NameCodec.Coherent(names)
    ensures var acc := LoopResult(w, taskDir, names);
            && |acc.processed| + |acc.failed| == |w.objFiles|
            && acc.failed == Casualties(w, w.objFiles)
            && acc.processed == OutputPaths(taskDir, Survivors(w, w.objFiles))
            && NameCodec.Coherent(acc.names)
            && TableAgrees(acc.asciiToOrig, acc.names)
            && (forall i :: 0 <= i < |w.objFiles| ==>
                  HasKey(acc.asciiToOrig, NameCodec.ToAscii(acc.names, OriginalBase(w.objFiles[i])).1))
  {
    var start := Acc([], [], [], names);
    RunFilesSplits(w, taskDir, w.objFiles, start);
    PartitionSizes(w, w.objFiles);
    RunFilesTable(w, taskDir, w.objFiles, start);
  }
}

=== FILE: remesher.dfy ===
/** The pure logic of remesher.py around the two external programs: reading a
    triangle count from Blender's standard output, the tiered quad budget,
    the retopology settings file, and the exit-code rule. The programs
    themselves are not modelled; their output text and exit code are inputs. */
module Remesher {
  import opened Common

  /** The count used when Blender's output holds no count. */
  const FallbackCount := 5000

  /** `str.isspace` for the characters Python counts as white space. */
  predicate IsSpace(c: char)
  {
    || c == ' ' || c == '\t' || c == '\n' || c == '\r' || c as int == 0x0B || c as int == 0x0C
    || (0x1C <= c as int <= 0x1F) || c as int == 0x85 || c as int == 0xA0 || c as int == 0x1680
    || (0x2000 <= c as int <= 0x200A) || c as int == 0x2028 || c as int == 0x2029
    || c as int == 0x202F || c as int == 0x205F || c as int == 0x3000
  }

  /** The line boundaries of `str.splitlines`. */
  predicate IsLineBreak(c: char)
  {
    || c == '\n' || c == '\r' || c as int == 0x0B || c as int == 0x0C
    || (0x1C <= c as int <= 0x1E) || c as int == 0x85 || c as int == 0x2028 || c as int == 0x2029
  }

  function TrimStart(s: string): (t: string)
    ensures |t| <= |s|
    ensures t == [] || !IsSpace(t[0])
  {
    if s != [] && IsSpace(s[0]) then TrimStart(s[1..]) else s
  }

  function TrimEnd(s: string): (t: string)
    ensures |t| <= |s|
    ensures t == [] || !IsSpace(t[|t| - 1])
  {
    if s != [] && IsSpace(s[|s| - 1]) then TrimEnd(s[..|s| - 1]) else s
  }

  /** `str.strip()` with no argument. */
  function Strip(s: string): string
  {
    TrimEnd(TrimStart(s))
  }

  lemma {:induction false} TrimStartRemovesSpace(s: string)
    ensures var t := TrimStart(s);
            t == s[|s| - |t|..] && forall i :: 0 <= i < |s| - |t| ==> IsSpace(s[i])
  {
    if s != [] && IsSpace(s[0]) {
      TrimStartRemovesSpace(s[1..]);
    }
  }

  lemma {:induction false} TrimEndRemovesSpace(s: string)
    ensures var t := TrimEnd(s);
            t == s[..|t|] && forall i :: |t| <= i < |s| ==> IsSpace(s[i])
  {
    if s != [] && IsSpace(s[|s| - 1]) {
      TrimEndRemovesSpace(s[..|s| - 1]);
    }
  }

  /** `str.strip()` removes white space and nothing else, from both ends only:
      the result is a slice of the input whose first and last characters are
      not white space, and everything cut off on either side is white space. */
  lemma StripRemovesOnlySpace(s: string)
    ensures var t := Strip(s);
            && (t == [] || (!IsSpace(t[0]) && !IsSpace(t[|t| - 1])))
            && exists k :: CutAt(s, k, t)
  {
    var u := TrimStart(s);
    var t := TrimEnd(u);
    TrimStartRemovesSpace(s);
    TrimEndRemovesSpace(u);
    var k := |s| - |u|;
    assert t == s[k..k + |t|];
    assert forall i :: k + |t| <= i < |s| ==> s[i] == u[i - k];
    if t != [] {
      assert t[0] == u[0];
    }
    assert CutAt(s, k, t);
  }

  /** `t` is `s[k..k + |t|]` and everything around it is white space. */
  predicate CutAt(s: string, k: int, t: string)
  {
    && 0 <= k <= |s| - |t|
    && t == s[k..k + |t|]
    && (forall i :: 0 <= i < k ==> IsSpace(s[i]))
    && (forall i :: k + |t| <= i < |s| ==> IsSpace(s[i]))
  }

  /** Index of the first line boundary of `s`, or |s| when there is none. */
  function FirstBreak(s: string): (k: nat)
    ensures k <= |s|
    ensures k < |s| ==> IsLineBreak(s[k])
    ensures forall i :: 0 <= i < k ==> !IsLineBreak(s[i])
  {
    if s == [] || IsLineBreak(s[0]) then 0 else 1 + FirstBreak(s[1..])
  }

  /** `str.splitlines()`: "\r\n" is one boundary, and a boundary at the very
      end does not start another line. */
  function SplitLines(s: string): (lines: seq<string>)
    ensures forall k :: 0 <= k < |lines| ==> NoLineBreak(lines[k])
    ensures s == [] <==> lines == []
    decreases |s|
  {
    if s == [] then []
    else
      var k := FirstBreak(s);
      if k == |s| then [s]
      else
        var width := if s[k] == '\r' && k + 1 < |s| && s[k + 1] == '\n' then 2 else 1;
        [s[..k]] + SplitLines(s[k + width..])
  }

  /** `str.isdigit()` for ASCII digits. */
  predicate IsDigits(s: string)
  {
    |s| > 0 && forall i :: 0 <= i < |s| ==> '0' <= s[i] <= '9'
  }

  /** `int()` of a string of decimal digits. */
  function DigitsValue(s: string): nat
    requires forall i :: 0 <= i < |s| ==> '0' <= s[i] <= '9'
  {
    if s == [] then 0 else 10 * DigitsValue(s[..|s| - 1]) + (s[|s| - 1] as int - '0' as int)
  }

  /** Python's `str(n)` for a natural number. */
  function NatToString(n: nat): (s: string)
    ensures IsDigits(s)
  {
    if n < 10 then [('0' as int + n) as char] else NatToString(n / 10) + [('0' as int + n % 10) as char]
  }

  /** Printing a count and reading it back gives the count again. */
  lemma {:induction false} NatToStringRoundTrip(n: nat)
    ensures DigitsValue(NatToString(n)) == n
  {
    if n >= 10 {
      var s := NatToString(n);
      assert s[..|s| - 1] == NatToString(n / 10);
      NatToStringRoundTrip(n / 10);
    }
  }

  predicate IsCountLine(line: string)
  {
    IsDigits(Strip(line))
  }

  /** The value of the last line that is a count after stripping, scanning from
      the end as `for line in reversed(lines)` does. */
  function LastCount(lines: seq<string>): (r: Option<nat>)
    ensures r.None? <==> forall i :: 0 <= i < |lines| ==> !IsCountLine(lines[i])
    ensures r.Some? ==>
              exists i :: 0 <= i < |lines| && IsCountLine(lines[i])
                          && r.value == DigitsValue(Strip(lines[i]))
                          && forall j :: i < j < |lines| ==> !IsCountLine(lines[j])
  {
    if lines == [] then None
    else
      var last := lines[|lines| - 1];
      if IsCountLine(last) then Some(DigitsValue(Strip(last)))
      else
        var r := LastCount(lines[..|lines| - 1]);
        assert forall i :: 0 <= i < |lines| - 1 ==> lines[..|lines| - 1][i] == lines[i];
        r
  }

  /** `get_fbx_triangle_count_blender` after Blender has run: the value of the
      last line of its standard output that is all digits once stripped, else
      the fallback. */
  function TriangleCount(stdout: string): (n: nat)
    ensures var lines := SplitLines(Strip(stdout));
            (forall i :: 0 <= i < |lines| ==> !IsCountLine(lines[i])) ==> n == FallbackCount
    ensures var lines := SplitLines(Strip(stdout));
            (exists i :: 0 <= i < |lines| && IsCountLine(lines[i])) ==>
              exists i :: && 0 <= i < |lines| && IsCountLine(lines[i])
                          && n == DigitsValue(Strip(lines[i]))
                          && forall j :: i < j < |lines| ==> !IsCountLine(lines[j])
  {
    match LastCount(SplitLines(Strip(stdout)))
    case Some(n) => n
    case None => FallbackCount
  }

  /** The tiered budget of `run_xremesh`. The source multiplies by the floats
      0.05, 0.1 and 0.25 and truncates with `int`; here that is integer
      division by 20, 10 and 4. */
  function TargetQuadCount(t: nat): (q: nat)
    ensures q >= 1
    ensures t >= 1 ==> q <= t
    ensures t > 100000 ==> q * 20 <= t < (q + 1) * 20
    ensures 20000 < t <= 100000 ==> q * 10 <= t < (q + 1) * 10
    ensures 4 <= t <= 20000 ==> q * 4 <= t < (q + 1) * 4
    ensures t < 4 ==> q == 1
  {
    if t > 100000 then Max1(t / 20)
    else if t > 20000 then Max1(t / 10)
    else Max1(t / 4)
  }

  function Max1(n: nat): nat
  {
    if n < 1 then 1 else n
  }

  /** The fixed quality flags that close the settings file. */
  const QualityFlags := [
    "CurvatureAdaptivness=20",
    "ExactQuadCount=1",
    "UseVertexColorMap=0",
    "UseMaterialIds=0",
    "UseIndexedNormals=0",
    "AutoDetectHardEdges=0"]

  /** A `Key="value"` line. */
  function Quoted(key: string, value: string): string
  {
    key + "=\"" + value + "\""
  }

  /** The eleven lines written to RetopoSettings.txt, in order. */
  function SettingsLines(fileIn: string, fileOut: string, progress: string, target: nat): seq<string>
  {
    [ "HostApp=Daemon",
      Quoted("FileIn", fileIn),
      Quoted("FileOut", fileOut),
      Quoted("ProgressFile", progress),
      "TargetQuadCount=" + NatToString(target) ]
    + QualityFlags
  }

  /** Each line followed by a newline, as the successive `f.write` calls
      produce. */
  function Terminated(lines: seq<string>): (t: string)
    ensures lines != [] ==> StartsWith(t, lines[0] + "\n") && t[|t| - 1] == '\n'
    ensures lines == [] <==> t == []
  {
    if lines == [] then "" else lines[0] + "\n" + Terminated(lines[1..])
  }

  function SettingsText(fileIn: string, fileOut: string, progress: string, target: nat): (t: string)
    ensures StartsWith(t, "HostApp=Daemon\n") && t[|t| - 1] == '\n'
  {
    Terminated(SettingsLines(fileIn, fileOut, progress, target))
  }

  predicate NoLineBreak(s: string)
  {
    forall i :: 0 <= i < |s| ==> !IsLineBreak(s[i])
  }

  lemma {:induction false} SplitTerminated(lines: seq<string>)
    requires AllNoLineBreak(lines)
    ensures SplitLines(Terminated(lines)) == lines
  {
    if lines != [] {
      var l := lines[0];
      var rest := Terminated(lines[1..]);
      var s := l + "\n" + rest;
      assert Terminated(lines) == s;
      FirstBreakAt(l, rest);
      assert s[|l|] == '\n';
      assert s[..|l|] == l;
      assert s[|l| + 1..] == rest;
      assert SplitLines(s) == [l] + SplitLines(rest);
      SplitTerminated(lines[1..]);
    }
  }

  /** The first boundary of `a + rest`, when `a` holds none and `rest`
      starts with one, sits right after `a`. */
  lemma FirstBreakAfter(a: string, rest: string)
    requires NoLineBreak(a) && rest != [] && IsLineBreak(rest[0])
    ensures FirstBreak(a + rest) == |a|
  {
    var s := a + rest;
    assert s[|a|] == rest[0];
    assert forall i :: 0 <= i < |a| ==> s[i] == a[i];
  }

  /** Text with no boundary is a single line. */
  lemma SplitLinesSingle(a: string)
    requires NoLineBreak(a) && a != []
    ensures SplitLines(a) == [a]
  {
    assert FirstBreak(a) == |a|;
  }

  /** A line ended by a one-character boundary (any boundary other than a
      "\r" that a "\n" follows) is the first line, and the rest splits on. */
  lemma SplitLinesCons(a: string, b: char, rest: string)
    requires NoLineBreak(a) && IsLineBreak(b)
    requires !(b == '\r' && rest != [] && rest[0] == '\n')
    ensures SplitLines(a + [b] + rest) == [a] + SplitLines(rest)
  {
    var s := a + [b] + rest;
    SplitAfter(a, [b] + rest, 1);
    assert s == a + ([b] + rest);
    assert ([b] + rest)[1..] == rest;
  }

  /** "\r\n" is one boundary: it ends the first line, and no empty line
      follows it. */
  lemma SplitLinesCrLf(a: string, rest: string)
    requires NoLineBreak(a)
    ensures SplitLines(a + "\r\n" + rest) == [a] + SplitLines(rest)
  {
    var s := a + "\r\n" + rest;
    SplitAfter(a, "\r\n" + rest, 2);
    assert s == a + ("\r\n" + rest);
    assert ("\r\n" + rest)[2..] == rest;
  }

  /** Unfolding `SplitLines` once at a boundary right after `a` of the given
      width. */
  lemma SplitAfter(a: string, tail: string, width: nat)
    requires NoLineBreak(a) && tail != [] && IsLineBreak(tail[0])
    requires width == if tail[0] == '\r' && |tail| > 1 && tail[1] == '\n' then 2 else 1
    ensures SplitLines(a + tail) == [a] + SplitLines(tail[width..])
  {
    var s := a + tail;
    FirstBreakAfter(a, tail);
    var k := |a|;
    assert s[k] == tail[0];
    assert k + 1 < |s| ==> s[k + 1] == tail[1];
    assert s[..k] == a;
    assert s[k + width..] == tail[width..];
  }

  lemma FirstBreakAt(l: string, rest: string)
    requires NoLineBreak(l)
    ensures FirstBreak(l + "\n" + rest) == |l|
  {
    var s := l + "\n" + rest;
    assert s[|l|] == '\n';
    assert forall i :: 0 <= i < |l| ==> s[i] == l[i];
  }

  lemma NoLineBreakConcat(a: string, b: string)
    requires NoLineBreak(a) && NoLineBreak(b)
    ensures NoLineBreak(a + b)
  {
    assert forall i :: 0 <= i < |a + b| ==> (a + b)[i] == if i < |a| then a[i] else b[i - |a|];
  }

  predicate AllNoLineBreak(lines: seq<string>)
  {
    forall k :: 0 <= k < |lines| ==> NoLineBreak(lines[k])
  }

  lemma QuotedHasNoBreak(key: string, value: string)
    requires NoLineBreak(key) && NoLineBreak(value)
    ensures NoLineBreak(Quoted(key, value))
  {
    assert NoLineBreak("=\"");
    assert NoLineBreak("\"");
    NoLineBreakConcat(key, "=\"");
    NoLineBreakConcat(key + "=\"", value);
    NoLineBreakConcat(key + "=\"" + value, "\"");
  }

  lemma QualityFlagsHaveNoBreak()
    ensures AllNoLineBreak(QualityFlags)
  {
    forall k | 0 <= k < |QualityFlags|
      ensures NoLineBreak(QualityFlags[k])
    {
      PrintableHasNoBreak(QualityFlags[k]);
    }
  }

  /** Printable ASCII holds no line boundary. */
  lemma PrintableHasNoBreak(s: string)
    requires forall i :: 0 <= i < |s| ==> ' ' <= s[i] <= '~'
    ensures NoLineBreak(s)
  {
  }

  lemma SettingsLinesHaveNoBreak(fileIn: string, fileOut: string, progress: string, target: nat)
    requires NoLineBreak(fileIn) && NoLineBreak(fileOut) && NoLineBreak(progress)
    ensures AllNoLineBreak(SettingsLines(fileIn, fileOut, progress, target))
  {
    var head := [
      "HostApp=Daemon",
      Quoted("FileIn", fileIn),
      Quoted("FileOut", fileOut),
      Quoted("ProgressFile", progress),
      "TargetQuadCount=" + NatToString(target) ];
    assert NoLineBreak("HostApp=Daemon");
    assert NoLineBreak("FileIn") && NoLineBreak("FileOut") && NoLineBreak("ProgressFile");
    QuotedHasNoBreak("FileIn", fileIn);
    QuotedHasNoBreak("FileOut", fileOut);
    QuotedHasNoBreak("ProgressFile", progress);
    assert NoLineBreak("TargetQuadCount=");
    NoLineBreakConcat("TargetQuadCount=", NatToString(target));
    assert AllNoLineBreak(head);
    QualityFlagsHaveNoBreak();
    assert SettingsLines(fileIn, fileOut, progress, target) == head + QualityFlags;
  }

  /** The settings file reads back as its eleven lines when no path contains a
      line boundary, and its budget line carries the target count. */
  lemma SettingsFileLayout(fileIn: string, fileOut: string, progress: string, target: nat)
    requires NoLineBreak(fileIn) && NoLineBreak(fileOut) && NoLineBreak(progress)
    ensures var lines := SplitLines(SettingsText(fileIn, fileOut, progress, target));
            && lines == SettingsLines(fileIn, fileOut, progress, target)
            && |lines| == 11
            && lines[0] == "HostApp=Daemon"
            && StartsWith(lines[4], "TargetQuadCount=")
            && IsDigits(lines[4][16..])
            && DigitsValue(lines[4][16..]) == target
  {
    var lines := SettingsLines(fileIn, fileOut, progress, target);
    SettingsLinesHaveNoBreak(fileIn, fileOut, progress, target);
    SplitTerminated(lines);
    assert lines[4] == "TargetQuadCount=" + NatToString(target);
    assert lines[4][16..] == NatToString(target);
    NatToStringRoundTrip(target);
  }

  /** One `run_xremesh` call once both programs have run. */
  datatype XremeshRun = XremeshRun(target: nat, settings: string, tempDirs: set<string>, error: Option<string>)

  /** `run_xremesh`: derives the budget from Blender's output, writes the
      settings into a new temporary directory `dir`, and raises when xremesh
      exits non-zero; the temporary directory is removed in either case.
      `fileIn` and `fileOut` are the input and output paths as the settings
      file carries them; the program passes them through `os.path.abspath`
      first, which this model does not resolve. */
  function RunXremesh(tempDirs: set<string>, dir: string, fileIn: string, fileOut: string,
                      countStdout: string, exitCode: int, stderr: string): (r: XremeshRun)
    ensures r.error.Some? <==> exitCode != 0
    ensures exitCode != 0 ==> r.error == Some("xremesh failed: " + stderr)
    ensures dir !in r.tempDirs && r.tempDirs == tempDirs - {dir}
    ensures r.target == TargetQuadCount(TriangleCount(countStdout)) && r.target >= 1
    ensures r.settings == SettingsText(fileIn, fileOut, PathJoin(dir, "progress.txt"), r.target)
  {
    var target := TargetQuadCount(TriangleCount(countStdout));
    var settings := SettingsText(fileIn, fileOut, PathJoin(dir, "progress.txt"), target);
    var during := tempDirs + {dir};
    var error := if exitCode != 0 then Some("xremesh failed: " + stderr) else None;
    XremeshRun(target, settings, during - {dir}, error)
  }
}

=== FILE: task_store.dfy ===
/** The task table of db/database.py as an in-memory value: a map from task id
    to record, plus the module-level `DB_PATH` reduced to an `initialized`
    flag. The ISO-8601 `created_at` strings become integers: `datetime.now()
    .isoformat()` strings of one clock sort lexicographically in time order,
    which is the order `ORDER BY created_at` uses. Ids and timestamps are
    supplied by the caller, standing in for `uuid.uuid4()` and the clock. */
module TaskStore {
  import opened Common

  /** The status strings the daemon writes: 'PENDING', 'PROCESSING', 'DONE'
      and 'FAILED'. */
  datatype Status = Pending | Processing | Done | Failed

  datatype Task = Task(sourcePath: string, status: Status, createdAt: int, logMessage: Option<string>)

  datatype Store = Store(initialized: bool, tasks: map<string, Task>)

  /** The exceptions the module raises: RuntimeError before `init_db`, and
      sqlite's IntegrityError when an INSERT repeats a primary key. */
  datatype DbError = NotInitialized | DuplicateId(id: string)

  const ResetMessage := "Reset by daemon startup"

  /** `init_db`: the table is created only if it does not exist, so rows of an
      earlier run survive. */
  function InitDb(s: Store): (r: Store)
    ensures r.initialized
    ensures r.tasks == s.tasks
  {
    Store(true, s.tasks)
  }

  /** `add_task`: inserts one PENDING record under the supplied id and returns
      that id. */
  function AddTask(s: Store, path: string, id: string, now: int): (r: Result<(Store, string), DbError>)
    ensures !s.initialized ==> r == Err(NotInitialized)
    ensures s.initialized && id in s.tasks ==> r == Err(DuplicateId(id))
    ensures s.initialized && id !in s.tasks ==> r.Ok?
    ensures r.Ok? ==>
              && r.value.1 == id
              && r.value.0.initialized
              && r.value.0.tasks.Keys == s.tasks.Keys + {id}
              && r.value.0.tasks[id] == Task(path, Pending, now, None)
              && (forall j :: j in s.tasks ==> r.value.0.tasks[j] == s.tasks[j])
  {
    if !s.initialized then Err(NotInitialized)
    else if id in s.tasks then Err(DuplicateId(id))
    else Ok((Store(true, s.tasks[id := Task(path, Pending, now, None)]), id))
  }

  predicate IsPending(s: Store, id: string)
  {
    id in s.tasks && s.tasks[id].status == Pending
  }

  predicate HasPending(s: Store)
  {
    exists id :: id in s.tasks && IsPending(s, id)
  }

  /** `id` is a PENDING record whose creation time no PENDING record precedes. */
  predicate IsOldestPending(s: Store, id: string)
  {
    && IsPending(s, id)
    && forall j :: j in s.tasks && IsPending(s, j) ==> s.tasks[id].createdAt <= s.tasks[j].createdAt
  }

  /** `get_next_task`: the id of the oldest PENDING record, or None when there
      is none. It reads the store and changes nothing. Among records created
      at the same instant SQLite may return any, so the choice is left open. */
  method GetNextTask(s: Store) returns (r: Result<Option<string>, DbError>)
    ensures !s.initialized ==> r == Err(NotInitialized)
    ensures s.initialized ==> r.Ok?
    ensures r.Ok? ==> (r.value.None? <==> !HasPending(s))
    ensures r.Ok? && r.value.Some? ==> IsOldestPending(s, r.value.value)
  {
    if !s.initialized {
      return Err(NotInitialized);
    }
    var remaining := s.tasks.Keys;
    var best: Option<string> := None;
    while remaining != {}
      invariant remaining <= s.tasks.Keys
      invariant best.Some? ==> IsPending(s, best.value)
      invariant forall j :: j in s.tasks.Keys - remaining && IsPending(s, j) ==>
                  best.Some? && s.tasks[best.value].createdAt <= s.tasks[j].createdAt
      decreases remaining
    {
      var id :| id in remaining;
      if IsPending(s, id) && (best.None? || s.tasks[id].createdAt < s.tasks[best.value].createdAt) {
        best := Some(id);
      }
      remaining := remaining - {id};
    }
    return Ok(best);
  }

  /** `update_status`: sets the status of the named record, and its log message
      when one is given; an unknown id matches no row. */
  function UpdateStatus(s: Store, id: string, status: Status, message: Option<string>): (r: Result<Store, DbError>)
    ensures !s.initialized ==> r == Err(NotInitialized)
    ensures s.initialized ==> r.Ok? && r.value.initialized && r.value.tasks.Keys == s.tasks.Keys
    ensures r.Ok? ==> forall j :: j in s.tasks && j != id ==> r.value.tasks[j] == s.tasks[j]
    ensures r.Ok? && id in s.tasks ==>
              && r.value.tasks[id].status == status
              && r.value.tasks[id].logMessage == (if message.Some? then message else s.tasks[id].logMessage)
              && r.value.tasks[id].sourcePath == s.tasks[id].sourcePath
              && r.value.tasks[id].createdAt == s.tasks[id].createdAt
    ensures r.Ok? && id !in s.tasks ==> r.value == s
  {
    if !s.initialized then Err(NotInitialized)
    else if id !in s.tasks then Ok(s)
    else
      var t := s.tasks[id];
      var msg := if message.Some? then message else t.logMessage;
      Ok(Store(true, s.tasks[id := t.(status := status, logMessage := msg)]))
  }

  /** Ids of the records in PROCESSING. */
  function ProcessingIds(s: Store): set<string>
  {
    set id | id in s.tasks && s.tasks[id].status == Processing
  }

  predicate NoneProcessing(s: Store)
  {
    forall id :: id in s.tasks ==> s.tasks[id].status != Processing
  }

  /** `mark_processing_as_failed`: every PROCESSING record becomes FAILED with
      the reset message; the count is SQLite's `rowcount`, the number of rows
      the UPDATE matched. */
  function MarkProcessingAsFailed(s: Store): (r: Result<(Store, nat), DbError>)
    ensures !s.initialized ==> r == Err(NotInitialized)
    ensures s.initialized ==> r.Ok?
    ensures r.Ok? ==>
              && r.value.0.initialized
              && r.value.0.tasks.Keys == s.tasks.Keys
              && r.value.1 == |ProcessingIds(s)|
              && NoneProcessing(r.value.0)
              && (forall id :: id in s.tasks && s.tasks[id].status == Processing ==>
                    r.value.0.tasks[id] == s.tasks[id].(status := Failed, logMessage := Some(ResetMessage)))
              && (forall id :: id in s.tasks && s.tasks[id].status != Processing ==>
                    r.value.0.tasks[id] == s.tasks[id])
  {
    if !s.initialized then Err(NotInitialized)
    else
      var tasks := map id | id in s.tasks ::
        if s.tasks[id].status == Processing
        then s.tasks[id].(status := Failed, logMessage := Some(ResetMessage))
        else s.tasks[id];
      Ok((Store(true, tasks), |ProcessingIds(s)|))
  }

  /** The sweep is idempotent: a second run right after the first matches no
      row and changes nothing. */
  lemma MarkTwiceChangesNothing(s: Store)
    requires s.initialized
    ensures var (s1, _) := MarkProcessingAsFailed(s).value;
            MarkProcessingAsFailed(s1) == Ok((s1, 0))
  {
    var s1 := MarkProcessingAsFailed(s).value.0;
    assert ProcessingIds(s1) == {};
    var s2 := MarkProcessingAsFailed(s1).value.0;
    assert s2.tasks == s1.tasks;
  }

  /** Repeating a status update is a no-op. */
  lemma UpdateStatusIdempotent(s: Store, id: string, status: Status, message: Option<string>)
    requires s.initialized
    ensures var s1 := UpdateStatus(s, id, status, message).value;
            UpdateStatus(s1, id, status, message) == Ok(s1)
  {
    var s1 := UpdateStatus(s, id, status, message).value;
    if id in s.tasks {
      assert s1.tasks[id := s1.tasks[id]] == s1.tasks;
    }
  }
}

=== FILE: utf8.dfy ===
/** UTF-8 as Python's `str.encode("utf-8")` and strict `bytes.decode("utf-8")`
    use it. A Dafny `char` is a Unicode scalar value, so every string encodes;
    decoding rejects what CPython's decoder rejects: stray continuation bytes,
    the lead bytes C0, C1 and F5-FF, truncated sequences, overlong forms,
    surrogates and values above U+10FFFF. */
module Utf8 {
  import opened Common

  predicate IsContinuation(b: byte)
  {
    0x80 <= b < 0xC0
  }

  /** The one to four bytes of a single character. */
  function EncodeChar(c: char): (bs: seq<byte>)
    ensures 1 <= |bs| <= 4
    ensures c as int < 0x80 <==> |bs| == 1
  {
    var v := c as int;
    if v < 0x80 then [v]
    else if v < 0x800 then [0xC0 + v / 0x40, 0x80 + v % 0x40]
    else if v < 0x10000 then [0xE0 + v / 0x1000, 0x80 + v / 0x40 % 0x40, 0x80 + v % 0x40]
    else [0xF0 + v / 0x40000, 0x80 + v / 0x1000 % 0x40, 0x80 + v / 0x40 % 0x40, 0x80 + v % 0x40]
  }

  function Encode(s: string): (bs: seq<byte>)
    ensures |s| <= |bs| <= 4 * |s|
  {
    if s == [] then [] else EncodeChar(s[0]) + Encode(s[1..])
  }

  /** The first character of `bs` and the number of bytes it occupies, or None
      where the strict decoder raises. */
  function DecodeFirst(bs: seq<byte>): (r: Option<(char, nat)>)
    requires |bs| > 0
    ensures r.Some? ==> 1 <= r.value.1 <= |bs| && r.value.1 <= 4
  {
    var b0 := bs[0] as int;
    if b0 < 0x80 then Some((b0 as char, 1))
    else if 0xC2 <= b0 < 0xE0 then
      if |bs| < 2 || !IsContinuation(bs[1]) then None
      else Some((((b0 - 0xC0) * 0x40 + (bs[1] as int - 0x80)) as char, 2))
    else if 0xE0 <= b0 < 0xF0 then
      if |bs| < 3 || !IsContinuation(bs[1]) || !IsContinuation(bs[2]) then None
      else
        var v := (b0 - 0xE0) * 0x1000 + (bs[1] as int - 0x80) * 0x40 + (bs[2] as int - 0x80);
        if v < 0x800 || 0xD800 <= v < 0xE000 then None else Some((v as char, 3))
    else if 0xF0 <= b0 < 0xF5 then
      if |bs| < 4 || !IsContinuation(bs[1]) || !IsContinuation(bs[2]) || !IsContinuation(bs[3]) then None
      else
        var v := (b0 - 0xF0) * 0x40000 + (bs[1] as int - 0x80) * 0x1000 + (bs[2] as int - 0x80) * 0x40 + (bs[3] as int - 0x80);
        if v < 0x10000 || v >= 0x110000 then None else Some((v as char, 4))
    else None
  }

  /** Strict decoding of a whole byte string: None where Python raises
      UnicodeDecodeError. */
  function Decode(bs: seq<byte>): (r: Option<string>)
    ensures r.Some? ==> |r.value| <= |bs| && (r.value == [] <==> bs == [])
    decreases |bs|
  {
    if |bs| == 0 then Some([])
    else
      match DecodeFirst(bs)
      case None => None
      case Some((c, n)) =>
        match Decode(bs[n..])
        case None => None
        case Some(rest) => Some([c] + rest)
  }

  lemma Split2(v: int)
    requires 0x80 <= v < 0x800
    ensures 2 <= v / 0x40 < 0x20 && (v / 0x40) * 0x40 + v % 0x40 == v
  {
  }

  lemma Split3(v: int)
    requires 0x800 <= v < 0x10000
    ensures v / 0x1000 < 0x10 && (v / 0x1000) * 0x1000 + (v / 0x40 % 0x40) * 0x40 + v % 0x40 == v
  {
    var q := v / 0x40;
    assert v == q * 0x40 + v % 0x40;
    assert q / 0x40 == v / 0x1000;
  }

  lemma Split4(v: int)
    requires 0x10000 <= v < 0x110000
    ensures v / 0x40000 < 5
    ensures (v / 0x40000) * 0x40000 + (v / 0x1000 % 0x40) * 0x1000 + (v / 0x40 % 0x40) * 0x40 + v % 0x40 == v
  {
    var q := v / 0x40;
    var q2 := v / 0x1000;
    assert v == q * 0x40 + v % 0x40;
    assert q / 0x40 == q2;
    assert q == q2 * 0x40 + q % 0x40;
    assert q2 / 0x40 == v / 0x40000;
    assert q2 == (v / 0x40000) * 0x40 + q2 % 0x40;
  }

  lemma DecodeFirstEncodeChar(c: char, rest: seq<byte>)
    ensures DecodeFirst(EncodeChar(c) + rest) == Some((c, |EncodeChar(c)|))
  {
    var v := c as int;
    var e := EncodeChar(c);
    var bs := e + rest;
    assert bs[..|e|] == e;
    if v < 0x80 {
    } else if v < 0x800 {
      Split2(v);
      assert e == [0xC0 + v / 0x40, 0x80 + v % 0x40];
    } else if v < 0x10000 {
      Split3(v);
      assert e == [0xE0 + v / 0x1000, 0x80 + v / 0x40 % 0x40, 0x80 + v % 0x40];
    } else {
      Split4(v);
      assert e == [0xF0 + v / 0x40000, 0x80 + v / 0x1000 % 0x40, 0x80 + v / 0x40 % 0x40, 0x80 + v % 0x40];
    }
  }

  /** Decoding recovers every string from its encoding. */
  lemma {:induction false} DecodeEncode(s: string)
    ensures Decode(Encode(s)) == Some(s)
  {
    if s != [] {
      var e := EncodeChar(s[0]);
      var rest := Encode(s[1..]);
      DecodeFirstEncodeChar(s[0], rest);
      assert (e + rest)[|e|..] == rest;
      DecodeEncode(s[1..]);
      assert [s[0]] + s[1..] == s;
    }
  }

  lemma Join2(a: int, b: int)
    requires 0 <= a < 0x20 && 0 <= b < 0x40
    ensures (a * 0x40 + b) / 0x40 == a && (a * 0x40 + b) % 0x40 == b
  {
  }

  lemma Join3(a: int, b: int, c: int)
    requires 0 <= a < 0x10 && 0 <= b < 0x40 && 0 <= c < 0x40
    ensures var v := a * 0x1000 + b * 0x40 + c;
            v / 0x1000 == a && v / 0x40 % 0x40 == b && v % 0x40 == c
  {
    var q := a * 0x40 + b;
    assert a * 0x1000 + b * 0x40 + c == q * 0x40 + c;
    Join2(a, b);
  }

  lemma Join4(a: int, b: int, c: int, d: int)
    requires 0 <= a < 8 && 0 <= b < 0x40 && 0 <= c < 0x40 && 0 <= d < 0x40
    ensures var v := a * 0x40000 + b * 0x1000 + c * 0x40 + d;
            v / 0x40000 == a && v / 0x1000 % 0x40 == b && v / 0x40 % 0x40 == c && v % 0x40 == d
  {
    var q2 := a * 0x40 + b;
    var q := q2 * 0x40 + c;
    var v := a * 0x40000 + b * 0x1000 + c * 0x40 + d;
    assert v == q * 0x40 + d;
    assert v / 0x40 == q && v % 0x40 == d;
    assert q / 0x40 == q2 && q % 0x40 == c;
    assert q2 / 0x40 == a && q2 % 0x40 == b;
    assert v == q2 * 0x1000 + (c * 0x40 + d);
    assert v / 0x1000 == q2;
    assert v == a * 0x40000 + (b * 0x1000 + c * 0x40 + d);
    assert v / 0x40000 == a;
  }

  lemma DecodeFirstIsEncoding(bs: seq<byte>)
    requires |bs| > 0 && DecodeFirst(bs).Some?
    ensures EncodeChar(DecodeFirst(bs).value.0) == bs[..DecodeFirst(bs).value.1]
  {
    var b0 := bs[0] as int;
    if b0 < 0x80 {
    } else if b0 < 0xE0 {
      Join2(b0 - 0xC0, bs[1] as int - 0x80);
    } else if b0 < 0xF0 {
      Join3(b0 - 0xE0, bs[1] as int - 0x80, bs[2] as int - 0x80);
    } else {
      Join4(b0 - 0xF0, bs[1] as int - 0x80, bs[2] as int - 0x80, bs[3] as int - 0x80);
    }
  }

  lemma DecodeStep(bs: seq<byte>)
    requires |bs| > 0 && Decode(bs).Some?
    ensures DecodeFirst(bs).Some?
    ensures Decode(bs[DecodeFirst(bs).value.1..]).Some?
    ensures Decode(bs).value == [DecodeFirst(bs).value.0] + Decode(bs[DecodeFirst(bs).value.1..]).value
  {
  }

  /** The converse: a byte string that decodes is exactly the encoding of its
      decoding, so the decoder accepts no alternative spelling of a string. */
  lemma {:induction false} EncodeDecode(bs: seq<byte>, s: string)
    requires Decode(bs) == Some(s)
    ensures Encode(s) == bs
    decreases |bs|
  {
    if |bs| > 0 {
      DecodeStep(bs);
      var c := DecodeFirst(bs).value.0;
      var n := DecodeFirst(bs).value.1;
      var rest := Decode(bs[n..]).value;
      DecodeFirstIsEncoding(bs);
      EncodeDecode(bs[n..], rest);
      EncodeCons(bs, n, c, rest, s);
    }
  }

  lemma EncodeCons(bs: seq<byte>, n: nat, c: char, rest: string, s: string)
    requires n <= |bs| && EncodeChar(c) == bs[..n] && Encode(rest) == bs[n..] && s == [c] + rest
    ensures Encode(s) == bs
  {
    assert s[0] == c && s[1..] == rest;
    assert bs == bs[..n] + bs[n..];
  }
}

=== FILE: worker.dfy ===
/** The daemon of main.py: startup recovery, the watcher's filter for new
    archives, and one iteration of the worker loop as a transition over the
    task table and the daemon's files. The watcher thread and the worker run
    concurrently in the program; here each call is one atomic step. */
module Worker {
  import opened Common
  import TaskStore
  import Pipeline
  import NameCodec

  /** Everything one iteration reads and writes: the task table and the
      files `process_task` touches. */
  datatype Daemon = Daemon(store: TaskStore.Store, disk: Pipeline.Disk)

  /** What an iteration did: sleep for want of work, finish a task (with
      whether `process_task` returned normally), or stop because a keyboard
      interrupt reached the loop while a task was running. */
  datatype Outcome = Slept | Finished(id: string, succeeded: bool) | Interrupted(id: string)

  /** Module import of main.py: `init_db`, then `cleanup_stale_tasks`, both
      before the loop can dequeue anything. A record the previous run left in
      PROCESSING (it was interrupted mid-task) is failed, never resumed. */
  function Startup(s: TaskStore.Store): (r: (TaskStore.Store, nat))
    ensures r.0.initialized
    ensures r.0.tasks.Keys == s.tasks.Keys
    ensures r.1 == |TaskStore.ProcessingIds(s)|
    ensures TaskStore.NoneProcessing(r.0)
    ensures forall id :: id in s.tasks && s.tasks[id].status == TaskStore.Processing ==>
              r.0.tasks[id] == s.tasks[id].(status := TaskStore.Failed, logMessage := Some(TaskStore.ResetMessage))
    ensures forall id :: id in s.tasks && s.tasks[id].status != TaskStore.Processing ==>
              r.0.tasks[id] == s.tasks[id]
  {
    TaskStore.MarkProcessingAsFailed(TaskStore.InitDb(s)).value
  }

  /** The test in `ZipHandler.on_created`: a file (not a directory) whose
      lower-cased path ends in ".zip". */
  predicate IsZipCreation(isDirectory: bool, path: string): (b: bool)
    ensures b ==> !isDirectory && |path| >= 4 && path[|path| - 4] == '.'
  {
    !isDirectory && EndsWith(AsciiLower(path), ".zip")
  }

  /** The filter spelled out: the last four characters are "." and the letters
      z, i, p in either case. */
  lemma ZipFilterIgnoresCase(isDirectory: bool, path: string)
    ensures IsZipCreation(isDirectory, path) <==>
              && !isDirectory
              && |path| >= 4
              && path[|path| - 4] == '.'
              && (path[|path| - 3] == 'z' || path[|path| - 3] == 'Z')
              && (path[|path| - 2] == 'i' || path[|path| - 2] == 'I')
              && (path[|path| - 1] == 'p' || path[|path| - 1] == 'P')
  {
    var n := |path|;
    var low := AsciiLower(path);
    if n >= 4 {
      var tail := low[n - 4..];
      assert tail == ".zip" <==> tail[0] == '.' && tail[1] == 'z' && tail[2] == 'i' && tail[3] == 'p';
      assert tail[0] == AsciiLowerChar(path[n - 4]);
      assert tail[1] == AsciiLowerChar(path[n - 3]);
      assert tail[2] == AsciiLowerChar(path[n - 2]);
      assert tail[3] == AsciiLowerChar(path[n - 1]);
    }
  }

  /** `on_created`: a matching event adds a PENDING task for the path under a
      fresh id at the current time; any other event changes nothing. */
  function OnCreated(s: TaskStore.Store, isDirectory: bool, path: string, freshId: string, now: int)
    : (r: Result<TaskStore.Store, TaskStore.DbError>)
    ensures !IsZipCreation(isDirectory, path) ==> r == Ok(s)
    ensures IsZipCreation(isDirectory, path) && !s.initialized ==> r == Err(TaskStore.NotInitialized)
    ensures IsZipCreation(isDirectory, path) && s.initialized && freshId !in s.tasks ==>
              && r.Ok?
              && r.value.tasks.Keys == s.tasks.Keys + {freshId}
              && r.value.tasks[freshId] == TaskStore.Task(path, TaskStore.Pending, now, None)
              && (forall j :: j in s.tasks ==> r.value.tasks[j] == s.tasks[j])
              && TaskStore.HasPending(r.value)
  {
    if !IsZipCreation(isDirectory, path) then Ok(s)
    else
      match TaskStore.AddTask(s, path, freshId, now)
      case Ok((s1, _)) =>
        assert TaskStore.IsPending(s1, freshId);
        Ok(s1)
      case Err(e) => Err(e)
  }

  /** `update_status` on a record known to exist, as one map assignment. */
  function Record(s: TaskStore.Store, id: string, status: TaskStore.Status, message: Option<string>)
    : (r: TaskStore.Store)
    requires s.initialized && id in s.tasks
    ensures r.initialized
    ensures r.tasks == s.tasks[id := s.tasks[id].(status := status,
                                                  logMessage := if message.Some? then message else s.tasks[id].logMessage)]
  {
    TaskStore.UpdateStatus(s, id, status, message).value
  }

  /** One pass of the `while True` body of `main_loop`. `w` is what the outside
      world does for the task dequeued in this pass, and `interrupt` says
      whether a keyboard interrupt arrives while `process_task` runs; that
      exception is not an `Exception`, so the handler does not catch it and the
      record stays PROCESSING, while the `finally` of `process_task` still
      cleans up. `marked` is the table while `process_task` runs. */
  method Step(d: Daemon, w: Pipeline.World, workRoot: string, interrupt: bool)
    returns (r: Result<(Daemon, Outcome), TaskStore.DbError>, marked: TaskStore.Store)
    ensures !d.store.initialized ==> r == Err(TaskStore.NotInitialized)
    ensures d.store.initialized ==> r.Ok?
    ensures r.Ok? ==> (r.value.1.Slept? <==> !TaskStore.HasPending(d.store))
    ensures r.Ok? && r.value.1.Slept? ==> r.value.0 == d
    ensures r.Ok? && !r.value.1.Slept? ==> TaskStore.IsOldestPending(d.store, r.value.1.id)
    ensures r.Ok? && !r.value.1.Slept? ==>
              var id := r.value.1.id;
              var task := d.store.tasks[id];
              var run := Pipeline.ProcessTask(w, workRoot, d.disk, id, task.sourcePath);
              && marked == TaskStore.Store(true, d.store.tasks[id := task.(status := TaskStore.Processing)])
              && (r.value.1.Finished? ==>
                    && r.value.0.store.initialized
                    && r.value.0.disk == run.disk
                    && r.value.1.succeeded == run.result.Ok?
                    && (run.result.Ok? ==>
                          r.value.0.store.tasks == d.store.tasks[id := task.(status := TaskStore.Done)])
                    && (run.result.Err? ==>
                          r.value.0.store.tasks
                          == d.store.tasks[id := task.(status := TaskStore.Failed, logMessage := Some(run.result.error))]))
              && (r.value.1.Interrupted? ==>
                    && interrupt
                    && r.value.0.store == marked
                    && r.value.0.disk == Pipeline.Disk(d.disk.workDirs - {id}, d.disk.outputs, NameCodec.Empty))
    ensures r.Ok? && r.value.1.Finished? ==> !interrupt
    ensures r.Ok? && !r.value.1.Interrupted? && TaskStore.NoneProcessing(d.store) ==>
              TaskStore.NoneProcessing(r.value.0.store)
  {
    marked := d.store;
    var next := TaskStore.GetNextTask(d.store);
    if next.Err? {
      return Err(next.error), marked;
    }
    if next.value.None? {
      return Ok((d, Slept)), marked;
    }
    var id := next.value.value;
    var run := Pipeline.ProcessTask(w, workRoot, d.disk, id, d.store.tasks[id].sourcePath);
    var after, outcome;
    after, outcome, marked := RunTask(d, id, interrupt, run);
    return Ok((after, outcome)), marked;
  }

  /** The `try` block of one pass for the dequeued task `id`: mark it
      PROCESSING, let `process_task` end as `run` says, and record DONE or
      FAILED, unless an interrupt arrives while `process_task` runs. */
  method RunTask(d: Daemon, id: string, interrupt: bool, run: Pipeline.TaskRun)
    returns (after: Daemon, outcome: Outcome, marked: TaskStore.Store)
    requires d.store.initialized && id in d.store.tasks
    ensures !outcome.Slept? && outcome.id == id
    ensures outcome.Interrupted? <==> interrupt
    ensures var task := d.store.tasks[id];
            && marked == TaskStore.Store(true, d.store.tasks[id := task.(status := TaskStore.Processing)])
            && (outcome.Finished? ==>
                  && after.store.initialized
                  && after.disk == run.disk
                  && outcome.succeeded == run.result.Ok?
                  && (run.result.Ok? ==>
                        after.store.tasks == d.store.tasks[id := task.(status := TaskStore.Done)])
                  && (run.result.Err? ==>
                        after.store.tasks
                        == d.store.tasks[id := task.(status := TaskStore.Failed, logMessage := Some(run.result.error))]))
            && (outcome.Interrupted? ==>
                  && after.store == marked
                  && after.disk == Pipeline.Disk(d.disk.workDirs - {id}, d.disk.outputs, NameCodec.Empty))
    ensures outcome.Finished? && TaskStore.NoneProcessing(d.store) ==> TaskStore.NoneProcessing(after.store)
  {
    var task := d.store.tasks[id];
    var s1 := Record(d.store, id, TaskStore.Processing, None);
    marked := s1;
    if interrupt {
      var disk := Pipeline.Disk(d.disk.workDirs - {id}, d.disk.outputs, NameCodec.Empty);
      return Daemon(s1, disk), Interrupted(id), marked;
    }
    var s2: TaskStore.Store;
    if run.result.Ok? {
      s2 := Record(s1, id, TaskStore.Done, None);
    } else {
      s2 := Record(s1, id, TaskStore.Failed, Some(run.result.error));
    }
    return Daemon(s2, run.disk), Finished(id, run.result.Ok?), marked;
  }

  /** The recovery a restart gives an interrupted task: the record left in
      PROCESSING is failed with the reset message, and the next loop pass does
      not pick it up again. */
  lemma InterruptedTaskFailsOnRestart(s: TaskStore.Store, id: string)
    requires id in s.tasks && s.tasks[id].status == TaskStore.Processing
    ensures var s1 := Startup(s).0;
            && s1.tasks[id] == s.tasks[id].(status := TaskStore.Failed, logMessage := Some(TaskStore.ResetMessage))
            && !TaskStore.IsPending(s1, id)
  {
  }
}
